=== FILE: README.md ===
# pyramid_webpack, modelled in Dafny

pyramid_webpack connects a Pyramid web application to the output of a
webpack build. webpack-bundle-tracker writes a JSON *stats file*. It holds a
build status (`compiling`, `done` or `error`) and, for each named bundle, the
ordered list of its output chunks. The library:

- reads one or more named configurations (`DEFAULT` plus extras) from the
  flat `webpack.*` settings;
- loads the stats file, caching it or re-reading it, and waits while webpack
  is still compiling;
- resolves a bundle name into the list of its chunks. An extension filter
  and ignore patterns select chunks, and each chunk gets a URL;
- provides the jinja2 tag `{% webpack '[config:]bundle' %}`, which renders
  its body once per asset.

The model is functional. Each piece of the library is one module:

| module | models |
|---|---|
| `Resource` | `StaticResource.create` and the file/package dispatch of `StaticResource.open` |
| `Settings` | `_get_setting` and every derivation in `WebpackState.__init__` |
| `Manifest` | the stats document and its chunks |
| `Loader` | `_load_stats` (three attempts with back-off) and `load_stats` (cache slot, defaults from `debug`, poll while compiling, timeout) |
| `Bundle` | `_chunk_filter`, `_add_url`, `get_bundle` |
| `Registry` | `Webpack.__init__`, the `stats` reify, `Webpack.get_bundle` on a facade, and `get_webpack`'s per-request memo |
| `Template` | `WebpackExtension._get_graph` |
| `Strings`, `Numbers`, `Glob`, `Wrappers` | support: `str.split`, `str.split()`, `strip`, `endswith`, decimal text, a `*`/`?` subset of `fnmatchcase`, `Option`/`Result` |

File reads are an *oracle*. It says what the k-th read of the stats file
yields and how long it takes. Time is exact `real` seconds: a poll sleeps
0.1 s and a retry sleeps `attempt * 0.2` s. The waiting loop takes a `fuel`
bound on the number of polls. `Blocked` means the bound ran out while the
document was still compiling. The regular-expression engine, the glob engine
and `request.static_url` are parameters.

Some behaviours are modelled as the code does them, even where they may
surprise:

- A stats file written `pkg:dir:file.json` raises `ValueError` inside
  `open`. `_load_stats` catches that as if the JSON were malformed, spends
  all three attempts and reports a parse error.
  (`Loader.UnlocatableIsParseFailure`)
- A document with status `error` but no `error` or `message` key raises
  `KeyError` while formatting the message. (`Bundle.BundleError.MissingErrorField`)
- After a timeout, the cache slot holds the last compiling document.
- `_add_url` writes URLs into the cached document, which is the same object
  as the configuration's shared cache slot. A later resolution on the same
  facade, or without debug on the next request's new facade over the same
  slot, returns the first URLs, even if that request builds static URLs
  differently. (`Bundle.GetBundleIdempotent`, `Registry.RepeatedGetBundle`,
  `Template.SecondRequestUsesCache`)
- An empty extension string drops every chunk. No extensions at all skips
  the suffix test; the ignore patterns still apply.
  (`Bundle.BlankExtensionsDropAll`, `Template.TagWithoutExtensions`)

## Model

| member | source | states |
|---|---|---|
| Resource.Create | pyramid_webpack/__init__.py:28-33 | the result is always qualified; it equals the input iff the input has a `:` or starts with `/`; otherwise it is `root:path` |
| Resource.CreateIdempotent | pyramid_webpack/__init__.py:31-33 | creating from a created resource's path changes nothing, whatever the second root package |
| Resource.Locate | pyramid_webpack/__init__.py:35-44 | a `/`-prefixed path is a file; otherwise opening succeeds iff the path has exactly one `:`, and package `:` file gives back the path |
| Resource.LocateCreated | pyramid_webpack/__init__.py:31-44 | a created unqualified path opens as the root package's asset; an absolute one as a file; two or more `:` cannot be opened |
| Resource.Describe | pyramid_webpack/__init__.py:46-47 | the text is `Resource('…')` around the path, which can be read back from it |
| Strings.Split | pyramid_webpack/__init__.py:43 | `str.split(sep)`: one more piece than separators, no piece holds the separator, joining the pieces gives the input back |
| Strings.SplitJoin | pyramid_webpack/__init__.py:43 | splitting a join of separator-free pieces gives the pieces back |
| Strings.Words | pyramid_webpack/__init__.py:164-165 | `str.split()`: non-empty whitespace-free words whose concatenation is the input without whitespace |
| Strings.WordsJoin | pyramid_webpack/__init__.py:164-165 | splitting space-joined words gives the words back |
| Strings.WordsOfWord | pyramid_webpack/__init__.py:164-165 | a non-empty text without whitespace is one word |
| Strings.WordsBreakAtSpace | pyramid_webpack/__init__.py:164-165 | any whitespace character separates the words before it from those after it |
| Settings.GetSetting | pyramid_webpack/__init__.py:92-107 | DEFAULT reads `webpack.<key>` or the default; a named configuration reads `webpack.<name>.<key>`, else DEFAULT's value when inheriting, else the default |
| Settings.GetSettingLocal | pyramid_webpack/__init__.py:92-107 | the value depends only on the two keys it can be read from |
| Settings.AsBool | pyramid_webpack/__init__.py:58-60 | a text value is true iff, stripped and lower-cased, it is one of `t true y yes on 1`; a bool is itself; an integer is true iff it is 1; unset or a list is false |
| Settings.AsList | pyramid_webpack/__init__.py:87-89 | the words are non-empty and whitespace-free; a string becomes its words; a list becomes the words of all its items, in order; a bool or number is an error |
| Settings.WordsOfAllJoin | pyramid_webpack/__init__.py:87-89 | the words of a list of strings are the words of the strings joined by spaces |
| Settings.WordsOfWords | pyramid_webpack/__init__.py:87-88 | a list of single words is kept as it is by `aslist` |
| Settings.AsFloat | pyramid_webpack/__init__.py:76 | numbers and bools convert; a text converts iff it is decimal text, to the value `float` gives it; a list is an error |
| Settings.CacheMaxAge | pyramid_webpack/__init__.py:77-86 | no expiry iff unset and debug; unset and not debug gives 3600; `future` gives ten years; any other value is its float value, or the float error |
| Settings.CacheMaxAgeExamples | pyramid_webpack/__init__.py:77-86 | `future` is over 100000 seconds, `1234` is 1234.0, unset is none in debug and 3600 otherwise |
| Settings.StaticViewPath | pyramid_webpack/__init__.py:61-68 | no `bundle_dir` gives `webpack-<name>`; otherwise the directory qualified exactly as `StaticResource.create` does |
| Settings.StatsFile | pyramid_webpack/__init__.py:72-75 | a text setting gives a qualified resource: the text itself iff it is already qualified, else `root:text`; a non-text setting is an error |
| Settings.NewState | pyramid_webpack/__init__.py:54-90 | construction succeeds iff every fallible field converts; the name is kept, the stats file is qualified, expiry is off only in debug, ignore globs are words |
| Settings.EmptySettingsDefaults | pyramid_webpack/__init__.py:54-90 | with no settings: not debug, static view on at `webpack-<name>`, stats file `root:webpack-stats.json`, timeout 0, expiry 3600, ignore `*.hot-update.js *.map`, no ignore regexes |
| Settings.NamedInheritsDefault | pyramid_webpack/__init__.py:58-89 | a named configuration takes DEFAULT's debug, timeout, expiry and ignore lists when it does not set them |
| Settings.NamedStatsFileNotInherited | pyramid_webpack/__init__.py:72-75 | a named configuration's stats file is never DEFAULT's: unset, it is `root:webpack-stats.json` |
| Numbers.ParseShowNat | pyramid_webpack/__init__.py:76 | `float` of a natural number's decimal text is that number |
| Numbers.ParseFloatNegative | pyramid_webpack/__init__.py:76 | a leading `-` on a digit string negates its value |
| Numbers.ParseFloat | pyramid_webpack/__init__.py:76 | `float` of a non-empty digit string is the number it spells |
| Numbers.ParseFloatDecimal | pyramid_webpack/__init__.py:85 | for any digit strings `w` and `f` with a digit between them, `float(w + "." + f)` is `w` plus `f` divided by ten to the number of digits of `f` |
| Numbers.ParseFloatUnsigned | pyramid_webpack/__init__.py:76 | text that starts and ends with a digit or a point has nothing to trim and no sign: it reads as the unsigned numeral |
| Numbers.ParseUnsignedDecimal | pyramid_webpack/__init__.py:85 | the unsigned numeral `w.f` is `w` plus `f` scaled down by its digit count |
| Numbers.ParseUnsignedAt | pyramid_webpack/__init__.py:85 | the unsigned reading splits at the first point into the whole and the fraction digits |
| Numbers.ParseUnsignedAccepts | pyramid_webpack/__init__.py:76 | the unsigned reading succeeds iff the text is a numeral: non-empty, not a lone point, only digits and at most one point; otherwise `float` raises `ValueError` |
| Numbers.ParseFloatAccepts | pyramid_webpack/__init__.py:76 | `float(text)` succeeds iff the text, with surrounding whitespace stripped, is a numeral with an optional leading `+` or `-` |
| Numbers.RejectsLetters | pyramid_webpack/__init__.py:76 | `float("abc")` raises `ValueError` |
| Numbers.RejectsLonePoint | pyramid_webpack/__init__.py:85 | `float(".")` raises `ValueError` |
| Numbers.RejectsSecondPoint | pyramid_webpack/__init__.py:85 | `float("1.2.3")` raises `ValueError` |
| Loader.ReadOnce | pyramid_webpack/__init__.py:130-132 | an openable file takes the next oracle read and its cost; an unopenable one reads nothing and looks malformed |
| Loader.LoadAttempts | pyramid_webpack/__init__.py:128-143 | reading from attempt `attempt` on, the clock never goes back and at most the remaining attempts are read |
| Loader.LoadAttemptsRetried | pyramid_webpack/__init__.py:128-143 | the retry loop meets `Retried`: an unopenable file gives the parse error without a read; otherwise the first non-malformed read decides, and all-malformed reads give the parse error after the remaining attempts |
| Loader.RetriedAtOnce | pyramid_webpack/__init__.py:130-143 | a non-malformed read, or a malformed one on the last attempt, ends the loop as `Retried` says |
| Loader.RetriedAfterGarbled | pyramid_webpack/__init__.py:132-137 | a malformed read with attempts left hands over to the next attempt one read later, and `Retried` carries back |
| Loader.LoadAttemptsTime | pyramid_webpack/__init__.py:128-143 | the clock advances by the costs of the reads made and the `attempt * 0.2` s sleeps between them |
| Loader.LoadOnce | pyramid_webpack/__init__.py:126-143 | the clock never goes back and at most three reads happen |
| Loader.LoadOnceRetried | pyramid_webpack/__init__.py:126-143 | `Retried` with three attempts: the first non-malformed read decides (an unreadable file fails without retry); three malformed reads give the parse error; the clock advances by the read costs and the sleeps of the retries made |
| Loader.RetryTimes | pyramid_webpack/__init__.py:136-137 | one good read costs its read time; one or two malformed reads add 0 s then 0.2 s of sleep; an unopenable file sleeps 0 s and 0.2 s |
| Loader.LoadOnceFirstRead | pyramid_webpack/__init__.py:128-131 | a first read that is not malformed decides after one read |
| Loader.UnlocatableIsParseFailure | pyramid_webpack/__init__.py:35-44 | an unopenable spec sleeps 0 then 0.2 seconds, reads nothing and fails with the parse error |
| Loader.Poll | pyramid_webpack/__init__.py:116-123 | a normal end has a finished document that is also in the slot; a timeout is raised only when a non-zero timeout has passed; running out of polls implies the timeout is 0 or not yet reached |
| Loader.UseCache | pyramid_webpack/__init__.py:111-112 | a given `cache` is used as given; by default the cache is used iff not in debug |
| Loader.Waits | pyramid_webpack/__init__.py:113-114 | a given `wait` is used as given; by default it waits iff in debug |
| Loader.DefaultsCacheXorWait | pyramid_webpack/__init__.py:111-114 | with the defaults, a load either uses the cache or waits, never both and never neither |
| Loader.LoadStats | pyramid_webpack/__init__.py:109-124 | a cache hit returns the slot with no read; without wait the answer is one fresh load; with wait it is never compiling; the slot holds every returned document; a zero timeout never times out |
| Loader.CachedLoadIgnoresFile | pyramid_webpack/__init__.py:111-115 | a second cached load returns the first document and reads nothing |
| Loader.UncachedLoadRereads | pyramid_webpack/__init__.py:115-116 | an uncached load without wait returns the file as read now and stores it |
| Loader.WaitUntilDone | pyramid_webpack/__init__.py:116-124 | compiling then done: waiting returns the done document after two reads |
| Loader.PollNeverFinishes | pyramid_webpack/__init__.py:118-123 | against a compiler that never finishes, polling `GivesUp`: it ends only by timeout or by running out of polls |
| Loader.CompileTimesOut | pyramid_webpack/__init__.py:119-121 | a positive timeout and a never-finishing compiler give the timeout error once enough polls are allowed |
| Loader.ZeroTimeoutWaitsForever | pyramid_webpack/__init__.py:118-119 | a zero timeout and a never-finishing compiler use every poll allowed |
| Bundle.AnyEndsWith | pyramid_webpack/__init__.py:171 | true iff the name ends with some extension |
| Bundle.AnyRegex | pyramid_webpack/__init__.py:173-175 | true iff some ignore regex matches |
| Bundle.AnyGlob | pyramid_webpack/__init__.py:176-178 | true iff some ignore glob matches |
| Bundle.ChunkFilter | pyramid_webpack/__init__.py:162-180 | a chunk is kept iff (no extensions, or its name ends with one) and no ignore regex and no ignore glob matches |
| Bundle.BlankExtensionsDropAll | pyramid_webpack/__init__.py:164-172 | an empty or blank extension string keeps nothing |
| Bundle.SpacedLikeListed | pyramid_webpack/__init__.py:164-165 | a space-joined extension string filters like the list of its suffixes |
| Bundle.JoinPath | pyramid_webpack/__init__.py:190-191 | an absolute name or an empty directory gives the name; otherwise the directory, one `/` unless it already ends with one, then the name |
| Bundle.AddUrl | pyramid_webpack/__init__.py:182-193 | only `url` changes and it is always set: an existing url is kept, else a non-empty publicPath, else the static URL of the joined view path |
| Bundle.AddUrlIdempotent | pyramid_webpack/__init__.py:184-185 | adding a URL twice equals adding it once, whatever the second URL builder |
| Bundle.KeptIndices | pyramid_webpack/__init__.py:202 | the kept positions: in range, accepted, strictly increasing, and every accepted position included |
| Bundle.Comprehension | pyramid_webpack/__init__.py:202 | the list comprehension has one entry per kept position, in order, each the decorated chunk there |
| Bundle.DecorateInPlace | pyramid_webpack/__init__.py:184-188 | the bundle list `_add_url` writes into keeps its length and order: each kept chunk becomes its decorated copy and every other chunk stays as it is |
| Bundle.ComprehensionCongruent | pyramid_webpack/__init__.py:202 | comprehensions over position-wise corresponding lists are equal |
| Bundle.GetBundle | pyramid_webpack/__init__.py:195-208 | success iff status `done` and the bundle exists; the assets are the decorated kept chunks in order, each with a URL; the document changes only in that bundle; missing bundle, `error` status (or its missing fields) and other statuses give their errors |
| Bundle.GetBundleIdempotent | pyramid_webpack/__init__.py:182-201 | resolving again on the written-back document returns the same assets and document, even with another URL builder |
| Bundle.DefaultIgnoreSpares | pyramid_webpack/__init__.py:87-88 | the default ignore globs `*.hot-update.js` and `*.map` match neither `main.js` nor `main.css` |
| Bundle.ExtensionStringExamples | tests/__init__.py:278-296 | with the default ignore list, `.css` keeps only `main.css`; `.js .css` keeps both chunks, in order |
| Bundle.CssSuffixKeepsStylesheet | tests/__init__.py:278-286 | with the default ignore list, the suffix list `[.css]` keeps only the stylesheet |
| Bundle.JsCssSuffixesKeepBoth | tests/__init__.py:288-296 | with the default ignore list, the suffix list `[.js, .css]` keeps both chunks, in order |
| Bundle.IgnoreGlobExample | tests/__init__.py:298-307 | the ignore glob `*.css` drops the stylesheet |
| Bundle.IgnoreRegexExample | tests/__init__.py:309-318 | with the default ignore globs, an ignore regex matching `main.css` and not `main.js` drops the stylesheet only |
| Bundle.PublicPathExample | tests/__init__.py:320-325 | with the default ignore list, a publicPath becomes the chunk's URL |
| Bundle.FailureExamples | tests/__init__.py:327-344 | a missing bundle, an `error` status and an unknown status each fail with their error |
| Glob.MatchAllStars | pyramid_webpack/__init__.py:177 | `fnmatchcase` with a non-empty pattern of stars only matches every name |
| Glob.MatchWithoutStar | pyramid_webpack/__init__.py:177 | without a star, `fnmatchcase` matches only names as long as the pattern |
| Glob.MatchLiteral | pyramid_webpack/__init__.py:177 | a pattern without wildcards matches only itself |
| Glob.MatchStarSuffix | pyramid_webpack/__init__.py:87-88 | `*` plus a literal suffix matches exactly the names ending with it |
| Registry.NewFacade | pyramid_webpack/__init__.py:150-155 | a facade exists iff the name is configured; it works on the configuration's state and starts with nothing loaded |
| Registry.GetWebpack | pyramid_webpack/__init__.py:211-222 | a memoised facade is returned with the memo unchanged; otherwise a new facade is stored iff the name is configured, and an unknown name stores nothing |
| Registry.GetWebpackKeepsMemoWellKeyed | pyramid_webpack/__init__.py:211-222 | every facade stays filed under its own name, and a call adds only the name asked for |
| Registry.GetWebpackKeepsSynced | pyramid_webpack/__init__.py:153 | every facade of a request works on its configuration's shared state, whose cache slot holds the facade's document |
| Registry.GetWebpackIdempotent | pyramid_webpack/__init__.py:218-222 | asking twice for a name gives the same facade and memo |
| Registry.FacadeStats | pyramid_webpack/__init__.py:157-160 | a stored document is returned without loading; otherwise `load_stats` runs with its defaults on the facade's state and only a loaded document is stored, the same one as in the state's slot |
| Registry.FacadeStatsOnce | pyramid_webpack/__init__.py:157-160 | after one successful read, the next returns the same document and reads nothing |
| Registry.GetBundle | pyramid_webpack/__init__.py:195-208 | load failures surface as they are; a loaded document is resolved, and on success the facade and its state's cache slot both hold the URL-decorated document |
| Registry.RepeatedGetBundle | pyramid_webpack/__init__.py:182-201 | a second resolution on one facade repeats the first's assets and reads nothing |
| Registry.FreshFacadeUsesSlot | pyramid_webpack/__init__.py:109-116 | without debug, a new facade over the state a successful resolution left gets the same assets and reads nothing |
| Template.SplitReference | pyramid_webpack/jinja2ext.py:65-68 | no `:` gives `DEFAULT` and the whole reference; success iff at most one `:`; with one, the two names joined by `:` give the reference back |
| Template.ReferenceRoundTrip | pyramid_webpack/jinja2ext.py:65-66 | `config:bundle` splits back into both names |
| Template.Render | pyramid_webpack/jinja2ext.py:70-71 | no assets render no text; one asset renders exactly its body |
| Template.RenderAppend | pyramid_webpack/jinja2ext.py:70-71 | rendering distributes over list concatenation: each asset's text once, in order |
| Template.RenderPrefix | pyramid_webpack/jinja2ext.py:70-71 | the text of the first assets is a prefix of the whole, followed by the text of the rest: nothing is added between asset texts |
| Template.TagWithoutExtensions | pyramid_webpack/jinja2ext.py:46-49 | a tag without extensions filters by the ignore patterns only |
| Template.GetGraph | pyramid_webpack/jinja2ext.py:60-71 | a bad reference or unknown configuration fails before any read and changes nothing; otherwise the facade's resolved assets are rendered in order or its error is returned, the facade is memoised and its state is the registry's state afterwards |
| Template.DefaultReference | pyramid_webpack/jinja2ext.py:65-70 | a reference without `:` renders the bundle of the DEFAULT facade, memoised or new, and fails as an unknown configuration when there is none |
| Template.GetGraphKeepsMemoWellKeyed | pyramid_webpack/jinja2ext.py:69 | the request's memo keeps at most one facade per name |
| Template.GetGraphKeepsSynced | pyramid_webpack/jinja2ext.py:69-70 | after a tag every facade still works on the registry's state, and the registry keeps its names and settings |
| Template.SecondRequestUsesCache | pyramid_webpack/__init__.py:111-115 | without debug, a later request rendering the same tag gets the same text and reads nothing |

## Left out

- File and package I/O, and JSON decoding: a read is an oracle outcome. A parsed document, a `ValueError` and an `IOError` are the three outcomes. The Python 3 failure of `.decode()` on a text-mode file is not modelled.
- `time.time` and `time.sleep`: the clock is exact real seconds advanced by the oracle's read costs and by the sleeps.
- Loader.Poll: the model bounds the number of polls by `fuel`. `Blocked` stands for the source waiting on; the contract bounds when that can happen rather than modelling an unbounded wait.
- Loader.LoadStats: the `Blocked` outcome is as for `Loader.Poll`.
- The regular-expression engine (`re.compile`, `match`): `Bundle.Matchers.regex` is a parameter. An invalid pattern raising at state construction is not modelled.
- `fnmatch.fnmatchcase`: `Bundle.Matchers.glob` is a parameter. `Glob.Match` covers `*`, `?` and literals, not bracket classes.
- `request.static_url`: a parameter. `posixpath.join` is modelled for the two arguments used.
- Settings.AsFloat: decimal text only (sign, digits, one point, surrounding whitespace). Exponents, `inf`, `nan` and underscores are rejected, though Python accepts them.
- pyramid's `asbool` and `aslist` are modelled, as `Settings.AsBool` and `Settings.AsList`, for the four value kinds of `Settings.Value` only: text, bool, integer and list of strings.
- Settings.Value has no float variant. A float setting such as `'webpack.timeout': 0.5` is written as the text `"0.5"`; `Numbers.ParseFloatDecimal` with `w = "0"` and `f = "5"` gives it the value 0.5.
- Settings.StatsFile: a non-text `stats_file` is an error at construction. Python also raises there, at the `:`/`startswith` test, except for a list holding the element `':'`, which it stores and fails on only when opening.
- Settings.StaticViewPath: a non-text `bundle_dir` is an error at construction. Python stores a list holding `':'` as the view path.
- `includeme`: the framework registration of configurations and static views.
- The jinja2 `parse` method, which builds the template AST.
- Concurrency around the shared cache slot: requests run one after another, each threading the registry's states through its tags.
- Object identity: a facade and its state's slot are kept equal by writing the facade's state back after each tag. A document an old facade holds after its state was reloaded by another request is outside the model.
- JSON shapes the stats document type cannot hold: a chunk whose `url` is `null` (kept, since `'url' in chunk`), a bundle mapped to `null` (the same `KeyError` as a missing one), and a document that is not an object (an `AttributeError` on `.get`).
- A chunk without a `name` key: chunks always have a name here, so the `KeyError` is not modelled.

=== FILE: bundle.dfy ===
/**
 * Resolving a bundle name to its asset list: `Webpack._chunk_filter`,
 * `_add_url` and `get_bundle`.
 *
 * The regular-expression engine, the glob engine and the framework's
 * static-URL builder are parameters: `Matchers` and `staticUrl`.
 */
module Bundle {
  import opened Wrappers
  import Strings
  import Resource
  import Settings
  import Glob
  import opened Manifest

  /** The `extensions` argument: `None`, one string of space-separated
      suffixes, or a list of suffixes. */
  datatype Extensions = Unfiltered | Spaced(text: string) | Listed(items: seq<string>)

  /** The suffix list the filter tests against; a string is split on
      whitespace first. */
  function Suffixes(ext: Extensions): Option<seq<string>> {
    match ext
    case Unfiltered => None
    case Spaced(s) => Some(Strings.Words(s))
    case Listed(xs) => Some(xs)
  }

  /** `regex(p, name)` is `re.compile(p).match(name)` succeeding;
      `glob(name, p)` is `fnmatch.fnmatchcase(name, p)`. */
  datatype Matchers = Matchers(regex: (string, string) -> bool, glob: (string, string) -> bool)

  /**
   * Which chunk names a bundle keeps: a name ending with one of the
   * suffixes (any name, when there is no suffix list), that no ignore
   * regular expression and no ignore glob matches.
   */
  predicate Wanted(cfg: Settings.Config, mt: Matchers, suffixes: Option<seq<string>>, name: string) {
    && (suffixes.None? || exists e | e in suffixes.value :: Strings.EndsWith(name, e))
    && (forall p | p in cfg.ignoreRe :: !mt.regex(p, name))
    && (forall p | p in cfg.ignore :: !mt.glob(name, p))
  }

  /** `any(name.endswith(e) for e in extensions)`. */
  function AnyEndsWith(name: string, exts: seq<string>): (b: bool)
    ensures b <==> exists e | e in exts :: Strings.EndsWith(name, e)
  {
    if |exts| == 0 then false
    else
      assert forall e | e in exts :: e == exts[0] || e in exts[1..];
      Strings.EndsWith(name, exts[0]) || AnyEndsWith(name, exts[1..])
  }

  /** The loop over `ignore_re`: some pattern matches the name. */
  function AnyRegex(mt: Matchers, patterns: seq<string>, name: string): (b: bool)
    ensures b <==> exists p | p in patterns :: mt.regex(p, name)
  {
    if |patterns| == 0 then false
    else
      assert forall p | p in patterns :: p == patterns[0] || p in patterns[1..];
      mt.regex(patterns[0], name) || AnyRegex(mt, patterns[1..], name)
  }

  /** The loop over `ignore`: some glob matches the name. */
  function AnyGlob(mt: Matchers, patterns: seq<string>, name: string): (b: bool)
    ensures b <==> exists p | p in patterns :: mt.glob(name, p)
  {
    if |patterns| == 0 then false
    else
      assert forall p | p in patterns :: p == patterns[0] || p in patterns[1..];
      mt.glob(name, patterns[0]) || AnyGlob(mt, patterns[1..], name)
  }

  /** The filter `_chunk_filter` builds, in the source's order of tests; it
      keeps exactly the `Wanted` names. */
  function ChunkFilter(cfg: Settings.Config, mt: Matchers, ext: Extensions, c: Chunk): (keep: bool)
    ensures keep <==> Wanted(cfg, mt, Suffixes(ext), c.name)
  {
    var suffixes := Suffixes(ext);
    if suffixes.Some? && !AnyEndsWith(c.name, suffixes.value) then false
    else if AnyRegex(mt, cfg.ignoreRe, c.name) then false
    else if AnyGlob(mt, cfg.ignore, c.name) then false
    else true
  }

  /** An empty or all-blank extension string splits into no suffixes, so it
      drops every chunk, unlike passing no extensions at all. */
  lemma BlankExtensionsDropAll(cfg: Settings.Config, mt: Matchers, text: string, c: Chunk)
    requires Strings.Squeeze(text) == []
    ensures !ChunkFilter(cfg, mt, Spaced(text), c)
  {
    assert Strings.Words(text) == [];
  }

  /** A space-separated extension string filters exactly like the list of
      its suffixes. */
  lemma SpacedLikeListed(cfg: Settings.Config, mt: Matchers, xs: seq<string>, c: Chunk)
    requires |xs| > 0 && forall x | x in xs :: |x| > 0 && Strings.NoSpace(x)
    ensures ChunkFilter(cfg, mt, Spaced(Strings.Join(xs, ' ')), c) == ChunkFilter(cfg, mt, Listed(xs), c)
  {
    Strings.WordsJoin(xs);
  }

  /** `posixpath.join(a, b)`: an absolute `b` replaces `a`; otherwise a `/`
      is inserted unless `a` is empty or already ends with one. */
  function JoinPath(a: string, b: string): (r: string)
    ensures Strings.StartsWith(b, "/") || |a| == 0 ==> r == b
    ensures !Strings.StartsWith(b, "/") ==>
              && Strings.StartsWith(r, a) && Strings.EndsWith(r, b)
              && (r == a + b || r == a + "/" + b)
    ensures !Strings.StartsWith(b, "/") && |a| > 0 ==> Strings.EndsWith(r[..|r| - |b|], "/")
    ensures !Strings.StartsWith(b, "/") && |a| > 0 ==> (r == a + b <==> Strings.EndsWith(a, "/"))
  {
    if Strings.StartsWith(b, "/") then b
    else if |a| == 0 || Strings.EndsWith(a, "/") then a + b
    else a + "/" + b
  }

  /**
   * `_add_url`: the chunk gains a `url` and nothing else changes. An
   * existing `url` is kept; otherwise a non-empty `publicPath` is used;
   * otherwise the static URL of the chunk's file under the static view.
   */
  function AddUrl(c: Chunk, viewPath: string, staticUrl: string -> string): (d: Chunk)
    ensures d.url.Some?
    ensures d.(url := c.url) == c
    ensures c.url.Some? ==> d == c
    ensures c.url.None? && c.publicPath.Some? && c.publicPath.value != "" ==> d.url == c.publicPath
    ensures c.url.None? && (c.publicPath.None? || c.publicPath.value == "") ==>
              d.url == Some(staticUrl(JoinPath(viewPath, c.name)))
  {
    if c.url.Some? then c
    else if c.publicPath.Some? && c.publicPath.value != "" then c.(url := c.publicPath)
    else c.(url := Some(staticUrl(JoinPath(viewPath, c.name))))
  }

  /** Adding a URL twice is adding it once: a later request, even one with a
      different static-URL builder, keeps the URL the first one set. */
  lemma AddUrlIdempotent(c: Chunk, view1: string, url1: string -> string, view2: string, url2: string -> string)
    ensures AddUrl(AddUrl(c, view1, url1), view2, url2) == AddUrl(c, view1, url1)
  {
  }

  /** The filter of a request, as a value. */
  function Keeper(cfg: Settings.Config, mt: Matchers, ext: Extensions): Chunk -> bool {
    c => ChunkFilter(cfg, mt, ext, c)
  }

  /** `_add_url` of a request, as a value. */
  function Decorator(cfg: Settings.Config, staticUrl: string -> string): Chunk -> Chunk {
    c => AddUrl(c, cfg.staticViewPath, staticUrl)
  }

  /** The positions of the chunks `keep` accepts, in increasing order, and
      all of them. */
  function KeptIndices(keep: Chunk -> bool, s: seq<Chunk>): (idx: seq<nat>)
    ensures forall j | 0 <= j < |idx| :: idx[j] < |s| && keep(s[idx[j]])
    ensures forall j, k | 0 <= j < k < |idx| :: idx[j] < idx[k]
    ensures forall n | 0 <= n < |s| && keep(s[n]) :: n in idx
    decreases |s|
  {
    if |s| == 0 then []
    else
      var front := s[..|s| - 1];
      var idx := KeptIndices(keep, front);
      assert forall j | 0 <= j < |idx| :: s[idx[j]] == front[idx[j]];
      assert forall n | 0 <= n < |front| :: s[n] == front[n];
      idx + (if keep(s[|s| - 1]) then [|s| - 1] else [])
  }

  /**
   * `[f(c) for c in s if keep(c)]`: one entry per kept position, in order,
   * each the image of the chunk there.
   */
  function Comprehension(s: seq<Chunk>, keep: Chunk -> bool, f: Chunk -> Chunk): (r: seq<Chunk>)
    ensures |r| == |KeptIndices(keep, s)|
    ensures forall j | 0 <= j < |r| :: r[j] == f(s[KeptIndices(keep, s)[j]])
    decreases |s|
  {
    if |s| == 0 then []
    else
      var n := |s| - 1;
      var front := s[..n];
      var r := Comprehension(front, keep, f);
      var idx := KeptIndices(keep, front);
      assert KeptIndices(keep, s) == idx + (if keep(s[n]) then [n] else []);
      assert forall j | 0 <= j < |r| :: r[j] == f(s[idx[j]]) by {
        forall j | 0 <= j < |r| ensures r[j] == f(s[idx[j]]) {
          assert s[idx[j]] == front[idx[j]];
        }
      }
      r + (if keep(s[n]) then [f(s[n])] else [])
  }

  /** Two comprehensions over position-wise corresponding lists agree. */
  lemma {:induction false} ComprehensionCongruent(s: seq<Chunk>, t: seq<Chunk>, keep: Chunk -> bool,
                                                  f: Chunk -> Chunk, g: Chunk -> Chunk)
    requires |s| == |t|
    requires forall i | 0 <= i < |s| :: keep(s[i]) == keep(t[i]) && (keep(s[i]) ==> f(s[i]) == g(t[i]))
    ensures Comprehension(s, keep, f) == Comprehension(t, keep, g)
    decreases |s|
  {
    if |s| > 0 {
      var n := |s| - 1;
      assert forall i | 0 <= i < n :: s[..n][i] == s[i] && t[..n][i] == t[i];
      ComprehensionCongruent(s[..n], t[..n], keep, f, g);
    }
  }

  /** The bundle list after `_add_url` has written into the kept chunks. */
  function DecorateInPlace(s: seq<Chunk>, keep: Chunk -> bool, f: Chunk -> Chunk): (r: seq<Chunk>)
    ensures |r| == |s|
    ensures forall i | 0 <= i < |s| :: r[i] == if keep(s[i]) then f(s[i]) else s[i]
  {
    seq(|s|, i requires 0 <= i < |s| => if keep(s[i]) then f(s[i]) else s[i])
  }

  datatype BundleError =
    | NoSuchBundle(bundle: string)                    // KeyError
    | CompileFailed(message: string)                  // RuntimeError "<error>: <message>"
    | MissingErrorField                               // KeyError from formatting the message
    | BadStatus(resource: string, status: Option<string>)  // RuntimeError naming the status

  /** The assets, and the stats document with the URLs written into it. */
  datatype Resolved = Resolved(assets: seq<Chunk>, stats: Stats)

  /**
   * `get_bundle(bundle_name, extensions)` on a loaded stats document.
   * Only a `done` document resolves, and only a bundle it lists. The assets
   * are the kept chunks in their original order, each with a URL; the
   * document gets those URLs and is otherwise unchanged.
   */
  function GetBundle(stats: Stats, cfg: Settings.Config, mt: Matchers, staticUrl: string -> string,
                     bundle: string, ext: Extensions): (r: Result<Resolved, BundleError>)
    ensures r.Ok? <==> stats.status == Some(StatusDone) && bundle in stats.chunks
    ensures stats.status == Some(StatusDone) && bundle !in stats.chunks ==> r == Err(NoSuchBundle(bundle))
    ensures stats.status == Some(StatusError) ==>
              if stats.error.Some? && stats.message.Some?
              then r == Err(CompileFailed(stats.error.value + ": " + stats.message.value))
              else r == Err(MissingErrorField)
    ensures stats.status != Some(StatusDone) && stats.status != Some(StatusError) ==>
              r == Err(BadStatus(Resource.Describe(cfg.statsFile), stats.status))
    ensures r.Ok? ==>
              var src := stats.chunks[bundle];
              var idx := KeptIndices(Keeper(cfg, mt, ext), src);
              && |r.value.assets| == |idx|
              && (forall j | 0 <= j < |idx| ::
                    r.value.assets[j] == AddUrl(src[idx[j]], cfg.staticViewPath, staticUrl))
    ensures r.Ok? ==> forall a | a in r.value.assets :: a.url.Some?
    ensures r.Ok? ==>
              && r.value.stats.(chunks := stats.chunks) == stats
              && r.value.stats.chunks.Keys == stats.chunks.Keys
              && (forall b | b in stats.chunks && b != bundle :: r.value.stats.chunks[b] == stats.chunks[b])
  {
    if stats.status == Some(StatusDone) then
      if bundle !in stats.chunks then Err(NoSuchBundle(bundle))
      else
        var src := stats.chunks[bundle];
        var keep := Keeper(cfg, mt, ext);
        var f := Decorator(cfg, staticUrl);
        var assets := Comprehension(src, keep, f);
        Ok(Resolved(assets, stats.(chunks := stats.chunks[bundle := DecorateInPlace(src, keep, f)])))
    else if stats.status == Some(StatusError) then
      if stats.error.Some? && stats.message.Some?
      then Err(CompileFailed(stats.error.value + ": " + stats.message.value))
      else Err(MissingErrorField)
    else Err(BadStatus(Resource.Describe(cfg.statsFile), stats.status))
  }

  /**
   * Resolving the same bundle again on the document the first resolution
   * wrote back returns the same assets and changes nothing more, even with
   * another request's static-URL builder.
   */
  lemma GetBundleIdempotent(stats: Stats, cfg: Settings.Config, mt: Matchers,
                            url1: string -> string, url2: string -> string,
                            bundle: string, ext: Extensions)
    requires GetBundle(stats, cfg, mt, url1, bundle, ext).Ok?
    ensures var r1 := GetBundle(stats, cfg, mt, url1, bundle, ext).value;
            GetBundle(r1.stats, cfg, mt, url2, bundle, ext) == Ok(r1)
  {
    var r1 := GetBundle(stats, cfg, mt, url1, bundle, ext).value;
    var src := stats.chunks[bundle];
    var src2 := DecorateInPlace(src, Keeper(cfg, mt, ext), Decorator(cfg, url1));
    assert r1.stats.chunks[bundle] == src2;
    Redecorate(src, cfg, mt, ext, url1, url2);
    assert r1.stats.chunks[bundle := src2] == r1.stats.chunks;
  }

  /** Filtering and decorating a bundle list that was already decorated in
      place gives the first assets again and leaves the list as it is. */
  lemma Redecorate(src: seq<Chunk>, cfg: Settings.Config, mt: Matchers, ext: Extensions,
                   url1: string -> string, url2: string -> string)
    ensures var keep := Keeper(cfg, mt, ext);
            var src2 := DecorateInPlace(src, keep, Decorator(cfg, url1));
            && Comprehension(src2, keep, Decorator(cfg, url2)) == Comprehension(src, keep, Decorator(cfg, url1))
            && DecorateInPlace(src2, keep, Decorator(cfg, url2)) == src2
  {
    var keep := Keeper(cfg, mt, ext);
    var f1 := Decorator(cfg, url1);
    var f2 := Decorator(cfg, url2);
    var src2 := DecorateInPlace(src, keep, f1);
    forall i | 0 <= i < |src|
      ensures keep(src2[i]) == keep(src[i])
      ensures keep(src[i]) ==> f2(src2[i]) == f1(src[i])
    {
      assert src2[i].name == src[i].name;
    }
    ComprehensionCongruent(src2, src, keep, f2, f1);
    assert DecorateInPlace(src2, keep, f2) == src2;
  }

  /** The two chunks of the bundle tests. */
  const MainJs: Chunk := Chunk("main.js", None, None, map["path" := "/static/main.js"])
  const MainCss: Chunk := Chunk("main.css", None, None, map["path" := "/static/main.css"])

  /** A compiled document whose bundle `main` is `main.js` then `main.css`. */
  function TwoChunkStats(): Stats {
    Stats(Some(StatusDone), map["main" := [MainJs, MainCss]], None, None)
  }

  /** `fnmatch.fnmatchcase` as a matcher value. */
  const FnMatch: (string, string) -> bool := (name, pattern) => Glob.Match(name, pattern)

  /** `*.hot-update.js` spares every name shorter than its suffix. */
  lemma HotUpdateSpares(name: string)
    requires |name| < 14
    ensures !FnMatch(name, Settings.DefaultIgnore[0])
  {
    var hot := ".hot-update.js";
    assert Settings.DefaultIgnore[0] == ['*'] + hot;
    assert Glob.Literal(hot) by {
      forall i | 0 <= i < |hot| ensures hot[i] != '*' && hot[i] != '?' { }
    }
    Glob.MatchStarSuffix(name, hot);
  }

  /** `*.map` spares every name that does not end in `p`. */
  lemma MapSpares(name: string)
    requires |name| > 0 && name[|name| - 1] != 'p'
    ensures !FnMatch(name, Settings.DefaultIgnore[1])
  {
    var m := ".map";
    assert Settings.DefaultIgnore[1] == ['*'] + m;
    assert Glob.Literal(m);
    Glob.MatchStarSuffix(name, m);
    if |name| >= |m| {
      assert name[|name| - |m|..][3] == name[|name| - 1];
    }
  }

  /** The default ignore globs `*.hot-update.js` and `*.map` spare both
      test chunks. */
  lemma DefaultIgnoreSpares(mt: Matchers, c: Chunk)
    requires mt.glob == FnMatch && (c == MainJs || c == MainCss)
    ensures forall p | p in Settings.DefaultIgnore :: !mt.glob(c.name, p)
  {
    var n := c.name;
    assert |n| < 14 && n[|n| - 1] == 's';
    HotUpdateSpares(n);
    MapSpares(n);
    assert forall p | p in Settings.DefaultIgnore :: p == Settings.DefaultIgnore[0] || p == Settings.DefaultIgnore[1];
  }

  /** Under the tests' configuration, a test chunk ending with one of the
      suffixes is kept. */
  lemma TestChunkKept(cfg: Settings.Config, mt: Matchers, ext: Extensions, e: string, c: Chunk)
    requires TestConfig(cfg, mt) && (c == MainJs || c == MainCss)
    requires Suffixes(ext).Some? && e in Suffixes(ext).value && Strings.EndsWith(c.name, e)
    ensures Keeper(cfg, mt, ext)(c)
  {
    DefaultIgnoreSpares(mt, c);
    KeepBySuffix(cfg, mt, ext, e, c);
  }

  /** The configuration of the bundle tests, a `WebpackState` built from no
      settings: the default ignore globs, no ignore regular expressions,
      and the real glob matcher. */
  ghost predicate TestConfig(cfg: Settings.Config, mt: Matchers) {
    cfg.ignore == Settings.DefaultIgnore && cfg.ignoreRe == [] && mt.glob == FnMatch
  }

  /** The comprehension over a two-chunk list, spelt out. */
  lemma ComprehensionOfTwo(a: Chunk, b: Chunk, keep: Chunk -> bool, f: Chunk -> Chunk)
    ensures Comprehension([a, b], keep, f)
            == (if keep(a) then [f(a)] else []) + (if keep(b) then [f(b)] else [])
  {
    var s := [a, b];
    assert s[..1] == [a] && s[..1][..0] == [];
  }

  /** The assets of bundle `main` of the two-chunk document under a filter. */
  lemma TwoChunkAssets(cfg: Settings.Config, mt: Matchers, staticUrl: string -> string, ext: Extensions)
    ensures GetBundle(TwoChunkStats(), cfg, mt, staticUrl, "main", ext).Ok?
    ensures var keep := Keeper(cfg, mt, ext);
            var f := Decorator(cfg, staticUrl);
            GetBundle(TwoChunkStats(), cfg, mt, staticUrl, "main", ext).value.assets
            == (if keep(MainJs) then [f(MainJs)] else []) + (if keep(MainCss) then [f(MainCss)] else [])
  {
    ComprehensionOfTwo(MainJs, MainCss, Keeper(cfg, mt, ext), Decorator(cfg, staticUrl));
  }

  /** A chunk that no ignore pattern matches is kept when its name ends
      with one of the suffixes. */
  lemma KeepBySuffix(cfg: Settings.Config, mt: Matchers, ext: Extensions, e: string, c: Chunk)
    requires forall p | p in cfg.ignoreRe :: !mt.regex(p, c.name)
    requires forall p | p in cfg.ignore :: !mt.glob(c.name, p)
    requires Suffixes(ext).Some?
    requires e in Suffixes(ext).value && Strings.EndsWith(c.name, e)
    ensures Keeper(cfg, mt, ext)(c)
  {
  }

  /** A chunk whose name ends with none of the suffixes is dropped. */
  lemma DropBySuffix(cfg: Settings.Config, mt: Matchers, ext: Extensions, c: Chunk)
    requires Suffixes(ext).Some?
    requires forall e | e in Suffixes(ext).value :: !Strings.EndsWith(c.name, e)
    ensures !Keeper(cfg, mt, ext)(c)
  {
  }

  /** The suffixes of `".css"`: the one word. */
  lemma CssSuffixes()
    ensures Suffixes(Spaced(".css")) == Some([".css"])
  {
    var w := ".css";
    assert Strings.NoSpace(w) by {
      forall i | 0 <= i < |w| ensures !Strings.IsWhitespace(w[i]) { }
    }
    Strings.WordsOfWord(w);
  }

  /** The suffixes of `".js .css"`: the two words, in order. */
  lemma JsCssSuffixes()
    ensures Suffixes(Spaced(".js .css")) == Some([".js", ".css"])
  {
    assert Strings.Join([".js", ".css"], ' ') == ".js .css" by {
      assert [".js", ".css"][1..] == [".css"];
    }
    Strings.WordsJoin([".js", ".css"]);
  }

  /** The test chunk `main.js` does not end with `.css`. */
  lemma MainJsNotCss()
    ensures !Strings.EndsWith(MainJs.name, ".css")
  {
    assert MainJs.name[3..][0] != ".css"[0];
  }

  /** Filtering by the suffix `.css` keeps the stylesheet only. */
  lemma CssSuffixKeepsStylesheet(cfg: Settings.Config, mt: Matchers, staticUrl: string -> string, ext: Extensions)
    requires TestConfig(cfg, mt) && Suffixes(ext) == Some([".css"])
    ensures GetBundle(TwoChunkStats(), cfg, mt, staticUrl, "main", ext).Ok?
    ensures GetBundle(TwoChunkStats(), cfg, mt, staticUrl, "main", ext).value.assets
            == [AddUrl(MainCss, cfg.staticViewPath, staticUrl)]
  {
    MainJsDropped(cfg, mt, ext);
    assert Suffixes(ext).value[0] == ".css";
    MainCssKept(cfg, mt, ext);
    StylesheetOnly(cfg, mt, staticUrl, ext);
  }

  /** The suffix list `[.css]` drops `main.js`. */
  lemma MainJsDropped(cfg: Settings.Config, mt: Matchers, ext: Extensions)
    requires Suffixes(ext) == Some([".css"])
    ensures !Keeper(cfg, mt, ext)(MainJs)
  {
    MainJsNotCss();
    DropBySuffix(cfg, mt, ext, MainJs);
  }

  /** A filter that drops `main.js` and keeps `main.css` leaves the
      stylesheet alone. */
  lemma StylesheetOnly(cfg: Settings.Config, mt: Matchers, staticUrl: string -> string, ext: Extensions)
    requires !Keeper(cfg, mt, ext)(MainJs) && Keeper(cfg, mt, ext)(MainCss)
    ensures GetBundle(TwoChunkStats(), cfg, mt, staticUrl, "main", ext).Ok?
    ensures GetBundle(TwoChunkStats(), cfg, mt, staticUrl, "main", ext).value.assets
            == [AddUrl(MainCss, cfg.staticViewPath, staticUrl)]
  {
    TwoChunkAssets(cfg, mt, staticUrl, ext);
  }

  /** Filtering by the suffixes `.js` and `.css` keeps both chunks, in order. */
  lemma JsCssSuffixesKeepBoth(cfg: Settings.Config, mt: Matchers, staticUrl: string -> string, ext: Extensions)
    requires TestConfig(cfg, mt) && Suffixes(ext) == Some([".js", ".css"])
    ensures GetBundle(TwoChunkStats(), cfg, mt, staticUrl, "main", ext).Ok?
    ensures GetBundle(TwoChunkStats(), cfg, mt, staticUrl, "main", ext).value.assets
            == [AddUrl(MainJs, cfg.staticViewPath, staticUrl), AddUrl(MainCss, cfg.staticViewPath, staticUrl)]
  {
    JsCssKeepers(cfg, mt, ext);
    TwoChunkAssets(cfg, mt, staticUrl, ext);
    var f := Decorator(cfg, staticUrl);
    assert f(MainJs) == AddUrl(MainJs, cfg.staticViewPath, staticUrl);
    assert f(MainCss) == AddUrl(MainCss, cfg.staticViewPath, staticUrl);
  }

  /** Both test chunks pass the `.js`/`.css` suffix filter. */
  lemma JsCssKeepers(cfg: Settings.Config, mt: Matchers, ext: Extensions)
    requires TestConfig(cfg, mt) && Suffixes(ext) == Some([".js", ".css"])
    ensures Keeper(cfg, mt, ext)(MainJs) && Keeper(cfg, mt, ext)(MainCss)
  {
    var sfx := Suffixes(ext).value;
    assert sfx[0] == ".js" && sfx[1] == ".css";
    MainJsKept(cfg, mt, ext);
    MainCssKept(cfg, mt, ext);
  }

  /** Under the tests' configuration `main.js` is kept by any suffix list
      holding `.js`. */
  lemma MainJsKept(cfg: Settings.Config, mt: Matchers, ext: Extensions)
    requires TestConfig(cfg, mt) && Suffixes(ext).Some? && ".js" in Suffixes(ext).value
    ensures Keeper(cfg, mt, ext)(MainJs)
  {
    assert Strings.EndsWith(MainJs.name, ".js") by {
      assert MainJs.name == "main" + ".js";
      Strings.EndsWithAppend("main", ".js");
    }
    TestChunkKept(cfg, mt, ext, ".js", MainJs);
  }

  /** Under the tests' configuration `main.css` is kept by any suffix list
      holding `.css`. */
  lemma MainCssKept(cfg: Settings.Config, mt: Matchers, ext: Extensions)
    requires TestConfig(cfg, mt) && Suffixes(ext).Some? && ".css" in Suffixes(ext).value
    ensures Keeper(cfg, mt, ext)(MainCss)
  {
    assert Strings.EndsWith(MainCss.name, ".css") by {
      assert MainCss.name == "main" + ".css";
      Strings.EndsWithAppend("main", ".css");
    }
    TestChunkKept(cfg, mt, ext, ".css", MainCss);
  }

  /** The extension strings `".css"` and `".js .css"` of the tests. */
  lemma ExtensionStringExamples(cfg: Settings.Config, mt: Matchers, staticUrl: string -> string)
    requires TestConfig(cfg, mt)
    ensures GetBundle(TwoChunkStats(), cfg, mt, staticUrl, "main", Spaced(".css")).Ok?
    ensures GetBundle(TwoChunkStats(), cfg, mt, staticUrl, "main", Spaced(".css")).value.assets
            == [AddUrl(MainCss, cfg.staticViewPath, staticUrl)]
    ensures GetBundle(TwoChunkStats(), cfg, mt, staticUrl, "main", Spaced(".js .css")).Ok?
    ensures GetBundle(TwoChunkStats(), cfg, mt, staticUrl, "main", Spaced(".js .css")).value.assets
            == [AddUrl(MainJs, cfg.staticViewPath, staticUrl), AddUrl(MainCss, cfg.staticViewPath, staticUrl)]
  {
    CssSuffixes();
    JsCssSuffixes();
    CssSuffixKeepsStylesheet(cfg, mt, staticUrl, Spaced(".css"));
    JsCssSuffixesKeepBoth(cfg, mt, staticUrl, Spaced(".js .css"));
  }

  /** With one ignore glob and no other filter, a chunk is kept exactly when
      the glob does not match its name. */
  lemma KeepByGlob(cfg: Settings.Config, mt: Matchers, pattern: string, c: Chunk)
    requires cfg.ignore == [pattern] && cfg.ignoreRe == []
    ensures Keeper(cfg, mt, Unfiltered)(c) <==> !mt.glob(c.name, pattern)
  {
  }

  /** The ignore glob `*.css` drops the stylesheet. */
  lemma IgnoreGlobExample(cfg: Settings.Config, regex: (string, string) -> bool, staticUrl: string -> string)
    requires cfg.ignore == ["*.css"] && cfg.ignoreRe == []
    ensures GetBundle(TwoChunkStats(), cfg, Matchers(regex, FnMatch), staticUrl, "main", Unfiltered).Ok?
    ensures GetBundle(TwoChunkStats(), cfg, Matchers(regex, FnMatch), staticUrl, "main", Unfiltered).value.assets
            == [AddUrl(MainJs, cfg.staticViewPath, staticUrl)]
  {
    var mt := Matchers(regex, FnMatch);
    assert ['*'] + ".css" == "*.css";
    assert Keeper(cfg, mt, Unfiltered)(MainJs) by {
      Glob.MatchStarSuffix("main.js", ".css");
      assert !Strings.EndsWith("main.js", ".css");
      KeepByGlob(cfg, mt, "*.css", MainJs);
    }
    assert !Keeper(cfg, mt, Unfiltered)(MainCss) by {
      Glob.MatchStarSuffix("main.css", ".css");
      assert Strings.EndsWith("main.css", ".css");
      KeepByGlob(cfg, mt, "*.css", MainCss);
    }
    TwoChunkAssets(cfg, mt, staticUrl, Unfiltered);
  }

  /** An ignore regular expression that matches `main.css` and not `main.js`
      drops the stylesheet. */
  lemma IgnoreRegexExample(cfg: Settings.Config, mt: Matchers, staticUrl: string -> string, pattern: string)
    requires cfg.ignore == Settings.DefaultIgnore && cfg.ignoreRe == [pattern] && mt.glob == FnMatch
    requires mt.regex(pattern, "main.css") && !mt.regex(pattern, "main.js")
    ensures GetBundle(TwoChunkStats(), cfg, mt, staticUrl, "main", Unfiltered).Ok?
    ensures GetBundle(TwoChunkStats(), cfg, mt, staticUrl, "main", Unfiltered).value.assets
            == [AddUrl(MainJs, cfg.staticViewPath, staticUrl)]
  {
    DefaultIgnoreSpares(mt, MainJs);
    TwoChunkAssets(cfg, mt, staticUrl, Unfiltered);
  }

  /** A chunk with a `publicPath` gets it as its URL. */
  lemma PublicPathExample(cfg: Settings.Config, mt: Matchers, staticUrl: string -> string, url: string)
    requires TestConfig(cfg, mt) && url != ""
    ensures var stats := Stats(Some(StatusDone), map["main" := [MainJs.(publicPath := Some(url))]], None, None);
            && GetBundle(stats, cfg, mt, staticUrl, "main", Unfiltered).Ok?
            && GetBundle(stats, cfg, mt, staticUrl, "main", Unfiltered).value.assets
               == [MainJs.(publicPath := Some(url), url := Some(url))]
  {
    var src := [MainJs.(publicPath := Some(url))];
    assert src[..0] == [];
    DefaultIgnoreSpares(mt, MainJs);
    assert Keeper(cfg, mt, Unfiltered)(src[0]);
  }

  /** An unknown bundle, an error status and an unknown status each fail. */
  lemma FailureExamples(cfg: Settings.Config, mt: Matchers, staticUrl: string -> string)
    ensures GetBundle(TwoChunkStats(), cfg, mt, staticUrl, "nope", Unfiltered) == Err(NoSuchBundle("nope"))
    ensures GetBundle(TwoChunkStats().(status := Some(StatusError), error := Some("FrobnicationError"),
                                       message := Some("Retro quarks")), cfg, mt, staticUrl, "main", Unfiltered)
            == Err(CompileFailed("FrobnicationError: Retro quarks"))
    ensures GetBundle(TwoChunkStats().(status := Some("wat")), cfg, mt, staticUrl, "main", Unfiltered)
            == Err(BadStatus(Resource.Describe(cfg.statsFile), Some("wat")))
  {
    assert "FrobnicationError" + ": " + "Retro quarks" == "FrobnicationError: Retro quarks";
  }
}

=== FILE: glob.dfy ===
/**
 * Case-sensitive shell-style matching as `fnmatch.fnmatchcase` does it, for
 * patterns built from `*` (any run of characters), `?` (any one character)
 * and literal characters. Bracket classes (`[...]`) are not part of this
 * model.
 */
module Glob {
  import Strings

  /** No `*` or `?` in the pattern: it matches only itself. */
  predicate Literal(p: string) {
    forall i | 0 <= i < |p| :: p[i] != '*' && p[i] != '?'
  }

  /** `fnmatchcase(name, pattern)`: the whole of `name` matches. */
  function Match(name: string, pattern: string): bool
    decreases |name| + |pattern|
  {
    if |pattern| == 0 then |name| == 0
    else if pattern[0] == '*' then
      Match(name, pattern[1..]) || (|name| > 0 && Match(name[1..], pattern))
    else if |name| == 0 then false
    else (pattern[0] == '?' || pattern[0] == name[0]) && Match(name[1..], pattern[1..])
  }

  /** A non-empty pattern of stars only matches every name. */
  lemma {:induction false} MatchAllStars(name: string, pattern: string)
    requires |pattern| > 0 && forall i | 0 <= i < |pattern| :: pattern[i] == '*'
    ensures Match(name, pattern)
    decreases |name| + |pattern|
  {
    if |pattern| > 1 {
      MatchAllStars(name, pattern[1..]);
    } else if |name| > 0 {
      MatchAllStars(name[1..], pattern);
    }
  }

  /** Without a star, each pattern character consumes exactly one name
      character, so a match has the pattern's length. */
  lemma {:induction false} MatchWithoutStar(name: string, pattern: string)
    requires forall i | 0 <= i < |pattern| :: pattern[i] != '*'
    ensures Match(name, pattern) ==> |name| == |pattern|
    decreases |pattern|
  {
    if |pattern| > 0 && |name| > 0 {
      MatchWithoutStar(name[1..], pattern[1..]);
    }
  }

  /** A literal pattern matches exactly the name equal to it. */
  lemma {:induction false} MatchLiteral(name: string, p: string)
    requires Literal(p)
    ensures Match(name, p) <==> name == p
    decreases |p|
  {
    if |p| > 0 && |name| > 0 {
      MatchLiteral(name[1..], p[1..]);
      assert name == [name[0]] + name[1..];
      assert p == [p[0]] + p[1..];
    }
  }

  /** `*` followed by a literal suffix, such as the default ignore patterns
      `*.hot-update.js` and `*.map`, matches exactly the names ending with
      that suffix. */
  lemma {:induction false} MatchStarSuffix(name: string, suffix: string)
    requires Literal(suffix)
    ensures Match(name, ['*'] + suffix) <==> Strings.EndsWith(name, suffix)
    decreases |name|
  {
    var p := ['*'] + suffix;
    assert p[1..] == suffix;
    MatchLiteral(name, suffix);
    if |name| > 0 {
      MatchStarSuffix(name[1..], suffix);
      Strings.EndsWithStep(name, suffix);
    } else {
      assert Strings.EndsWith(name, suffix) <==> name == suffix;
    }
  }
}

=== FILE: loader.dfy ===
/**
 * Loading the stats file: `WebpackState.load_stats` and `_load_stats`.
 *
 * The file system, JSON decoding and the clock are not modelled directly.
 * An `Oracle` says what the k-th read of the stats file yields and how long
 * it takes; an `Io` records how many reads have happened and the current
 * time in seconds. Sleeping advances the clock by exactly the time slept.
 */
module Loader {
  import opened Wrappers
  import Resource
  import Settings
  import opened Manifest

  /** What one `open` + `json.loads` of the stats file yields: a document,
      a `ValueError` (malformed JSON, say while webpack is still writing),
      or an `IOError` (the file cannot be read). */
  datatype ReadOutcome = Parsed(stats: Stats) | Garbled | Unreadable

  type Duration = r: real | r >= 0.0

  /** The k-th read of the stats file yields `read(k)` and lasts `cost(k)`. */
  datatype Oracle = Oracle(read: nat -> ReadOutcome, cost: nat -> Duration)

  /** Reads performed so far, and the current time. */
  datatype Io = Io(count: nat, clock: real)

  datatype LoadError =
    | ReadFailed(resource: string)   // IOError naming the stats file
    | ParseFailed                    // ValueError from the third attempt
    | TimedOut(resource: string)     // RuntimeError: timed out while compiling

  /** `_load_stats` reads at most this many times. */
  const Attempts: nat := 3

  /** `load_stats` sleeps this long between polls of a compiling file. */
  const PollInterval: real := 0.1

  /** `_load_stats` sleeps this long after a malformed read on attempt
      `attempt`. */
  function Backoff(attempt: nat): real {
    attempt as real * 0.2
  }

  /**
   * The time the retry loop from attempt `attempt` on takes, when the next
   * read is read `c` and `located` says whether the resource can be
   * opened: each read's time, and a back-off sleep after each malformed
   * read that has attempts left after it.
   */
  function RetryTime(located: bool, o: Oracle, attempt: nat, c: nat): real
    decreases Attempts - attempt
  {
    var more := attempt < Attempts - 1;
    if !located then (if more then Backoff(attempt) + RetryTime(located, o, attempt + 1, c) else 0.0)
    else if !o.read(c).Garbled? || !more then o.cost(c)
    else o.cost(c) + Backoff(attempt) + RetryTime(located, o, attempt + 1, c + 1)
  }

  datatype Step = Step(result: Result<Stats, LoadError>, io: Io)

  /** One opening of the stats file. A resource whose path does not name a
      file or one package asset raises `ValueError` inside `open`, before
      any read, and that is indistinguishable from malformed JSON. */
  function ReadOnce(res: Resource.StaticResource, o: Oracle, io: Io): (r: (ReadOutcome, Io))
    ensures Resource.Locate(res).Ok? ==>
              r == (o.read(io.count), Io(io.count + 1, io.clock + o.cost(io.count)))
    ensures Resource.Locate(res).Err? ==> r == (Garbled, io)
    ensures r.1.count == io.count <==> Resource.Locate(res).Err?
  {
    if Resource.Locate(res).Err? then (Garbled, io)
    else (o.read(io.count), Io(io.count + 1, io.clock + o.cost(io.count)))
  }

  /** Every read in `[lo, hi)` is malformed. */
  predicate GarbledBetween(o: Oracle, lo: nat, hi: nat) {
    forall j | lo <= j < hi :: o.read(j).Garbled?
  }

  /** What a read that ends the retry loop returns. */
  function Decided(outcome: ReadOutcome, res: Resource.StaticResource): Result<Stats, LoadError>
    requires !outcome.Garbled?
  {
    if outcome.Parsed? then Ok(outcome.stats) else Err(ReadFailed(Resource.Describe(res)))
  }

  /**
   * What a retry loop that starts at read `c` with `left` attempts may
   * yield for `res`, as `_load_stats` promises it; `located` says whether
   * the resource can be opened. One that cannot gives the parse error
   * without reading; otherwise between one and `left` reads happen, the
   * first read that is not malformed decides, and `left` malformed reads in
   * a row give the parse error.
   */
  ghost predicate Retried(located: bool, res: Resource.StaticResource, o: Oracle, c: nat, left: nat, r: Step) {
    && (!located ==> r.result == Err(ParseFailed) && r.io.count == c)
    && (located ==> c < r.io.count <= c + left)
    && (located ==>
          forall m {:trigger GarbledBetween(o, c, m)} | c <= m < c + left
                     && GarbledBetween(o, c, m) && !o.read(m).Garbled? ::
            r.result == Decided(o.read(m), res) && r.io.count == m + 1)
    && (located && GarbledBetween(o, c, c + left) ==>
          r.result == Err(ParseFailed) && r.io.count == c + left)
  }

  /**
   * The retry loop of `_load_stats` from attempt `attempt` on: the first
   * read that is not malformed decides the result; a malformed read is
   * retried after `Backoff(attempt)` until the attempts run out, and then
   * its error propagates. `LoadAttemptsRetried` states what it yields.
   */
  function LoadAttempts(res: Resource.StaticResource, o: Oracle, attempt: nat, io: Io): (r: Step)
    requires attempt < Attempts
    ensures r.io.clock >= io.clock
    ensures io.count <= r.io.count <= io.count + (Attempts - attempt)
    decreases Attempts - attempt
  {
    var (outcome, io1) := ReadOnce(res, o, io);
    match outcome
    case Parsed(stats) => Step(Ok(stats), io1)
    case Unreadable => Step(Err(ReadFailed(Resource.Describe(res))), io1)
    case Garbled =>
      if attempt < Attempts - 1 then
        LoadAttempts(res, o, attempt + 1, io1.(clock := io1.clock + Backoff(attempt)))
      else Step(Err(ParseFailed), io1)
  }

  /** The retry loop takes the time `RetryTime` counts. */
  lemma {:induction false} LoadAttemptsTime(res: Resource.StaticResource, o: Oracle, attempt: nat, io: Io)
    requires attempt < Attempts
    ensures LoadAttempts(res, o, attempt, io).io.clock
         == io.clock + RetryTime(Resource.Locate(res).Ok?, o, attempt, io.count)
    decreases Attempts - attempt
  {
    var (outcome, io1) := ReadOnce(res, o, io);
    if outcome.Garbled? && attempt < Attempts - 1 {
      LoadAttemptsTime(res, o, attempt + 1, io1.(clock := io1.clock + Backoff(attempt)));
    }
  }

  /** A read that ends the retry loop at once: the first one when it is
      not malformed, the last attempt, or any attempt on a resource that
      cannot be opened once no attempt is left after it. */
  lemma RetriedAtOnce(res: Resource.StaticResource, o: Oracle, attempt: nat, io: Io)
    requires attempt < Attempts
    requires !ReadOnce(res, o, io).0.Garbled? || attempt == Attempts - 1
    ensures Retried(Resource.Locate(res).Ok?, res, o, io.count, Attempts - attempt, LoadAttempts(res, o, attempt, io))
  {
    var r := LoadAttempts(res, o, attempt, io);
    if Resource.Locate(res).Ok? && !o.read(io.count).Garbled? {
      assert r.result == Decided(o.read(io.count), res) && r.io.count == io.count + 1;
      forall m | io.count < m
        ensures !GarbledBetween(o, io.count, m)
      {
        assert !o.read(io.count).Garbled?;
      }
    }
  }

  /** A malformed read with attempts left after it: the loop goes on one
      read later with one attempt fewer. */
  lemma RetriedAfterGarbled(res: Resource.StaticResource, o: Oracle, attempt: nat, io: Io, io1: Io)
    requires attempt < Attempts - 1 && ReadOnce(res, o, io) == (Garbled, io1)
    requires Retried(Resource.Locate(res).Ok?, res, o, io1.count, Attempts - (attempt + 1),
                     LoadAttempts(res, o, attempt + 1, io1.(clock := io1.clock + Backoff(attempt))))
    ensures Retried(Resource.Locate(res).Ok?, res, o, io.count, Attempts - attempt, LoadAttempts(res, o, attempt, io))
  {
    var r := LoadAttempts(res, o, attempt, io);
    assert r == LoadAttempts(res, o, attempt + 1, io1.(clock := io1.clock + Backoff(attempt)));
    if Resource.Locate(res).Ok? {
      forall m | io.count <= m < io.count + (Attempts - attempt)
                 && GarbledBetween(o, io.count, m) && !o.read(m).Garbled?
        ensures r.result == Decided(o.read(m), res) && r.io.count == m + 1
      {
        assert m != io.count;
        assert GarbledBetween(o, io1.count, m);
      }
      if GarbledBetween(o, io.count, io.count + (Attempts - attempt)) {
        assert GarbledBetween(o, io1.count, io1.count + (Attempts - (attempt + 1)));
      }
    }
  }

  /** The retry loop meets `Retried` for the attempts it has left. */
  lemma {:induction false} LoadAttemptsRetried(res: Resource.StaticResource, o: Oracle, attempt: nat, io: Io)
    requires attempt < Attempts
    ensures Retried(Resource.Locate(res).Ok?, res, o, io.count, Attempts - attempt, LoadAttempts(res, o, attempt, io))
    decreases Attempts - attempt
  {
    var io1 := ReadOnce(res, o, io).1;
    if ReadOnce(res, o, io).0.Garbled? && attempt < Attempts - 1 {
      LoadAttemptsRetried(res, o, attempt + 1, io1.(clock := io1.clock + Backoff(attempt)));
      RetriedAfterGarbled(res, o, attempt, io, io1);
    } else {
      RetriedAtOnce(res, o, attempt, io);
    }
  }

  /**
   * `_load_stats`: at most three reads. The first read that is not
   * malformed decides: a document is returned, an unreadable file fails at
   * once without retry. Three malformed reads in a row fail with the parse
   * error. `LoadOnceRetried` states this and the time it takes.
   */
  function LoadOnce(res: Resource.StaticResource, o: Oracle, io: Io): (r: Step)
    ensures r.io.clock >= io.clock
    ensures io.count <= r.io.count <= io.count + Attempts
  {
    LoadAttempts(res, o, 0, io)
  }

  /** `LoadOnce` meets `Retried` for all three attempts, and it takes the
      read costs plus 0 s after the first malformed read and 0.2 s after
      the second. */
  lemma LoadOnceRetried(res: Resource.StaticResource, o: Oracle, io: Io)
    ensures Retried(Resource.Locate(res).Ok?, res, o, io.count, Attempts, LoadOnce(res, o, io))
    ensures LoadOnce(res, o, io).io.clock == io.clock + RetryTime(Resource.Locate(res).Ok?, o, 0, io.count)
  {
    LoadAttemptsRetried(res, o, 0, io);
    LoadAttemptsTime(res, o, 0, io);
  }

  /**
   * The time `_load_stats` takes, which `LoadOnce` adds to the clock: each
   * read's own time, plus a sleep of `0 * 0.2` seconds after a first
   * malformed read and of `1 * 0.2` seconds after a second one; the third
   * malformed read is not followed by a sleep. An unopenable resource
   * takes only the two sleeps.
   */
  lemma RetryTimes(o: Oracle, c: nat)
    ensures !o.read(c).Garbled? ==> RetryTime(true, o, 0, c) == o.cost(c)
    ensures o.read(c).Garbled? && !o.read(c + 1).Garbled? ==>
              RetryTime(true, o, 0, c) == o.cost(c) + 0.0 + o.cost(c + 1)
    ensures o.read(c).Garbled? && o.read(c + 1).Garbled? ==>
              RetryTime(true, o, 0, c) == o.cost(c) + 0.0 + o.cost(c + 1) + 0.2 + o.cost(c + 2)
    ensures RetryTime(false, o, 0, c) == 0.0 + 0.2
  {
    assert RetryTime(true, o, 2, c + 2) == o.cost(c + 2);
    assert RetryTime(false, o, 2, c) == 0.0;
  }

  /** The first read decides when it is not malformed. */
  lemma LoadOnceFirstRead(res: Resource.StaticResource, o: Oracle, io: Io)
    requires Resource.Locate(res).Ok? && !o.read(io.count).Garbled?
    ensures LoadOnce(res, o, io).result == Decided(o.read(io.count), res)
    ensures LoadOnce(res, o, io).io.count == io.count + 1
  {
    LoadOnceRetried(res, o, io);
    assert GarbledBetween(o, io.count, io.count);
  }

  /**
   * A stats file configured as `pkg:dir:file.json` cannot be opened, and
   * the `ValueError` from unpacking its path is caught as if the JSON were
   * malformed: all three attempts are spent, sleeping 0 and then 0.2
   * seconds, no read happens, and the parse error is what surfaces.
   */
  lemma UnlocatableIsParseFailure(res: Resource.StaticResource, o: Oracle, io: Io)
    requires Resource.Locate(res).Err?
    ensures LoadOnce(res, o, io) == Step(Err(ParseFailed), Io(io.count, io.clock + 0.2))
  {
    LoadOnceRetried(res, o, io);
    RetryTimes(o, io.count);
  }

  /** A configuration together with its one-slot stats cache. */
  datatype State = State(config: Settings.Config, stats: Option<Stats>)

  /** How a call of `load_stats` ended. `Blocked` means the model's bound on
      polls ran out while the file was still compiling: the source would
      still be waiting. */
  datatype Outcome = Loaded(stats: Stats) | Failed(error: LoadError) | Blocked

  datatype Polled = Polled(outcome: Outcome, slot: Stats, io: Io)

  /** The wait has lasted longer than a non-zero `timeout`. */
  predicate Expired(timeout: real, start: real, now: real) {
    timeout != 0.0 && now - start > timeout
  }

  /**
   * The `while wait and status == 'compiling'` loop, from a current
   * document `cur` and with at most `fuel` more polls. Each poll checks the
   * timeout, sleeps `PollInterval` and reloads; `slot` is the document the
   * cache slot holds when the loop ends. A normal end has a finished
   * document; a timeout is raised only when a non-zero timeout has
   * passed; and the polls run out only while the timeout has not, so a
   * non-zero timeout bounds the number of polls.
   */
  function Poll(cfg: Settings.Config, o: Oracle, cur: Stats, start: real, io: Io, fuel: nat): (r: Polled)
    requires start <= io.clock
    ensures r.io.clock >= io.clock && r.io.count >= io.count
    ensures !IsCompiling(cur) ==> r == Polled(Loaded(cur), cur, io)
    ensures r.outcome.Loaded? ==> !IsCompiling(r.outcome.stats) && r.slot == r.outcome.stats
    ensures !r.outcome.Loaded? ==> IsCompiling(r.slot)
    ensures r.outcome == Failed(TimedOut(cfg.statsFile.path)) ==> Expired(cfg.timeout, start, r.io.clock)
    ensures r.outcome.Blocked? ==>
              cfg.timeout == 0.0
              || (cfg.timeout > 0.0 && (io.clock - start) + fuel as real * PollInterval <= cfg.timeout)
    decreases fuel
  {
    if !IsCompiling(cur) then Polled(Loaded(cur), cur, io)
    else if Expired(cfg.timeout, start, io.clock) then Polled(Failed(TimedOut(cfg.statsFile.path)), cur, io)
    else if fuel == 0 then Polled(Blocked, cur, io)
    else
      var step := LoadOnce(cfg.statsFile, o, io.(clock := io.clock + PollInterval));
      match step.result
      case Err(e) => Polled(Failed(e), cur, step.io)
      case Ok(next) => Poll(cfg, o, next, start, step.io, fuel - 1)
  }

  /** The result of `load_stats`: how it ended, the state's new cache slot,
      and the reads and time it used. */
  datatype LoadResult = LoadResult(outcome: Outcome, state: State, io: Io)

  /** The `cache` argument, defaulting to `not debug`. */
  function UseCache(st: State, cache: Option<bool>): (b: bool)
    ensures cache.Some? ==> b == cache.value
    ensures cache.None? ==> (b <==> !st.config.debug)
  {
    cache.GetOr(!st.config.debug)
  }

  /** The `wait` argument, defaulting to `debug`. */
  function Waits(st: State, wait: Option<bool>): (b: bool)
    ensures wait.Some? ==> b == wait.value
    ensures wait.None? ==> (b <==> st.config.debug)
  {
    wait.GetOr(st.config.debug)
  }

  /** With both arguments left out, a state either caches or waits, never
      both and never neither. */
  lemma DefaultsCacheXorWait(st: State)
    ensures UseCache(st, None) != Waits(st, None)
  {
  }

  /** A cached document is returned as it is. */
  predicate CacheHit(st: State, cache: Option<bool>) {
    UseCache(st, cache) && st.stats.Some?
  }

  /**
   * `load_stats(cache, wait)`.
   *  - A cache hit returns the stored document and reads nothing.
   *  - Otherwise the file is loaded once; without `wait` that load is the
   *    answer, even while compiling.
   *  - With `wait`, a normal answer is never a compiling document.
   *  - Whenever a document is returned, the cache slot holds it.
   *  - A failure leaves the slot as it was, or holding the last
   *    compiling document read while waiting.
   *  - A zero timeout never times out; a non-zero one ends the wait within
   *    `timeout / PollInterval` polls.
   */
  function LoadStats(st: State, cache: Option<bool>, wait: Option<bool>, o: Oracle, io: Io, fuel: nat): (r: LoadResult)
    ensures r.state.config == st.config
    ensures r.io.count >= io.count && r.io.clock >= io.clock
    ensures CacheHit(st, cache) ==> r == LoadResult(Loaded(st.stats.value), st, io)
    ensures r.outcome.Loaded? ==> r.state.stats == Some(r.outcome.stats)
    ensures !CacheHit(st, cache) && !Waits(st, wait) ==>
              var step := LoadOnce(st.config.statsFile, o, io);
              && (r.outcome.Loaded? <==> step.result.Ok?)
              && (step.result.Ok? ==> r.outcome.stats == step.result.value)
              && (step.result.Err? ==> r.outcome == Failed(step.result.error))
              && r.io == step.io
    ensures !CacheHit(st, cache) && Waits(st, wait) && r.outcome.Loaded? ==> !IsCompiling(r.outcome.stats)
    ensures r.outcome.Failed? ==>
              r.state.stats == st.stats || (r.state.stats.Some? && IsCompiling(r.state.stats.value))
    ensures st.config.timeout == 0.0 ==> r.outcome != Failed(TimedOut(st.config.statsFile.path))
    ensures r.outcome.Blocked? ==>
              Waits(st, wait)
              && (st.config.timeout == 0.0
                  || (st.config.timeout > 0.0 && fuel as real * PollInterval <= st.config.timeout))
  {
    if CacheHit(st, cache) then LoadResult(Loaded(st.stats.value), st, io)
    else
      var first := LoadOnce(st.config.statsFile, o, io);
      match first.result
      case Err(e) => LoadResult(Failed(e), st, first.io)
      case Ok(stats) =>
        if !Waits(st, wait) then LoadResult(Loaded(stats), st.(stats := Some(stats)), first.io)
        else
          var p := Poll(st.config, o, stats, first.io.clock, first.io, fuel);
          LoadResult(p.outcome, st.(stats := Some(p.slot)), p.io)
  }
  /** Two cached loads: the second returns the first's document and reads
      nothing, whatever the file says by then. */
  lemma CachedLoadIgnoresFile(st: State, w1: Option<bool>, o1: Oracle, io1: Io, f1: nat,
                              w2: Option<bool>, o2: Oracle, io2: Io, f2: nat)
    requires LoadStats(st, Some(true), w1, o1, io1, f1).outcome.Loaded?
    ensures var r1 := LoadStats(st, Some(true), w1, o1, io1, f1);
            LoadStats(r1.state, Some(true), w2, o2, io2, f2) == LoadResult(r1.outcome, r1.state, io2)
  {
  }

  /** Without the cache and without waiting, the answer is the file as read
      now, even a compiling one, and it replaces whatever was cached. */
  lemma UncachedLoadRereads(st: State, o: Oracle, io: Io, fuel: nat, stats: Stats)
    requires Resource.Locate(st.config.statsFile).Ok?
    requires o.read(io.count) == Parsed(stats)
    ensures LoadStats(st, Some(false), Some(false), o, io, fuel)
         == LoadResult(Loaded(stats), st.(stats := Some(stats)),
                       Io(io.count + 1, io.clock + o.cost(io.count)))
  {
    LoadOnceFirstRead(st.config.statsFile, o, io);
  }

  /** Waiting on a compiling file whose next read is finished returns the
      finished document after one poll. */
  lemma WaitUntilDone(st: State, cache: Option<bool>, wait: Option<bool>, o: Oracle, io: Io, fuel: nat,
                      first: Stats, done: Stats)
    requires !CacheHit(st, cache) && Waits(st, wait)
    requires Resource.Locate(st.config.statsFile).Ok?
    requires st.config.timeout >= 0.0 && fuel >= 1
    requires o.read(io.count) == Parsed(first) && IsCompiling(first)
    requires o.read(io.count + 1) == Parsed(done) && !IsCompiling(done)
    ensures LoadStats(st, cache, wait, o, io, fuel).outcome == Loaded(done)
    ensures LoadStats(st, cache, wait, o, io, fuel).state.stats == Some(done)
    ensures LoadStats(st, cache, wait, o, io, fuel).io.count == io.count + 2
  {
    var res := st.config.statsFile;
    assert CompilingAt(o, io.count);
    LoadOnceFirstRead(res, o, io);
    var io1 := LoadOnce(res, o, io).io;
    var io2 := io1.(clock := io1.clock + PollInterval);
    LoadOnceFirstRead(res, o, io2);
  }

  /** Read `k` yields a compiling document. */
  predicate CompilingAt(o: Oracle, k: nat) {
    o.read(k).Parsed? && IsCompiling(o.read(k).stats)
  }

  /** Every read yields a compiling document: webpack never finishes. */
  ghost predicate AlwaysCompiling(o: Oracle) {
    forall k: nat :: CompilingAt(o, k)
  }

  /** Loading a compiling document reads once and returns it. */
  lemma CompilingLoad(res: Resource.StaticResource, o: Oracle, io: Io)
    requires Resource.Locate(res).Ok? && CompilingAt(o, io.count)
    ensures LoadOnce(res, o, io).result == Ok(o.read(io.count).stats)
    ensures IsCompiling(o.read(io.count).stats)
  {
    LoadOnceFirstRead(res, o, io);
  }

  /** How a wait on a compiler that never finishes can end: with the
      timeout error, or with the polls run out. */
  predicate GivesUp(cfg: Settings.Config, out: Outcome) {
    out == Failed(TimedOut(cfg.statsFile.path)) || out == Blocked
  }

  /** Against a compiler that never finishes, polling ends only by timing
      out or by running out of polls. */
  lemma {:induction false} PollNeverFinishes(cfg: Settings.Config, o: Oracle, cur: Stats, start: real, io: Io, fuel: nat)
    requires Resource.Locate(cfg.statsFile).Ok? && AlwaysCompiling(o)
    requires IsCompiling(cur) && start <= io.clock
    ensures GivesUp(cfg, Poll(cfg, o, cur, start, io, fuel).outcome)
    decreases fuel
  {
    if !Expired(cfg.timeout, start, io.clock) && fuel > 0 {
      var io1 := io.(clock := io.clock + PollInterval);
      assert CompilingAt(o, io1.count);
      CompilingLoad(cfg.statsFile, o, io1);
      var step := LoadOnce(cfg.statsFile, o, io1);
      PollNeverFinishes(cfg, o, step.result.value, start, step.io, fuel - 1);
    }
  }

  /** With a positive timeout and a compiler that never finishes, waiting
      fails with the timeout error once enough polls are allowed. */
  lemma CompileTimesOut(st: State, cache: Option<bool>, wait: Option<bool>, o: Oracle, io: Io, fuel: nat)
    requires !CacheHit(st, cache) && Waits(st, wait)
    requires Resource.Locate(st.config.statsFile).Ok? && AlwaysCompiling(o)
    requires st.config.timeout > 0.0 && fuel as real * PollInterval > st.config.timeout
    ensures LoadStats(st, cache, wait, o, io, fuel).outcome == Failed(TimedOut(st.config.statsFile.path))
  {
    var res := st.config.statsFile;
    assert CompilingAt(o, io.count);
    LoadOnceFirstRead(res, o, io);
    var first := LoadOnce(res, o, io);
    PollNeverFinishes(st.config, o, first.result.value, first.io.clock, first.io, fuel);
  }

  /** With a zero timeout and a compiler that never finishes, waiting never
      ends: however many polls are allowed, all of them are used. */
  lemma ZeroTimeoutWaitsForever(st: State, cache: Option<bool>, wait: Option<bool>, o: Oracle, io: Io, fuel: nat)
    requires !CacheHit(st, cache) && Waits(st, wait)
    requires Resource.Locate(st.config.statsFile).Ok? && AlwaysCompiling(o)
    requires st.config.timeout == 0.0
    ensures LoadStats(st, cache, wait, o, io, fuel).outcome == Blocked
  {
    var res := st.config.statsFile;
    assert CompilingAt(o, io.count);
    LoadOnceFirstRead(res, o, io);
    var first := LoadOnce(res, o, io);
    PollNeverFinishes(st.config, o, first.result.value, first.io.clock, first.io, fuel);
  }
}

=== FILE: manifest.dfy ===
/**
 * The decoded stats file written by webpack-bundle-tracker: a status, and
 * for each bundle the ordered list of its chunks.
 */
module Manifest {
  import opened Wrappers

  /** One output file of a bundle. `url` is absent in the file and added by
      bundle resolution; `rest` holds the fields passed through untouched
      (such as `path`). */
  datatype Chunk = Chunk(name: string, publicPath: Option<string>, url: Option<string>, rest: map<string, string>)

  /** The stats document. A missing `chunks` key reads as no bundles at all,
      as `stats.get('chunks', {})` does. */
  datatype Stats = Stats(
    status: Option<string>,
    chunks: map<string, seq<Chunk>>,
    error: Option<string>,
    message: Option<string>)

  const StatusCompiling: string := "compiling"
  const StatusDone: string := "done"
  const StatusError: string := "error"

  /** The compiler is still writing its output. */
  predicate IsCompiling(stats: Stats) {
    stats.status == Some(StatusCompiling)
  }
}

=== FILE: numbers.dfy ===
/**
 * Decimal numerals, as Python's `float()` reads them from a settings
 * string: optional surrounding whitespace, an optional sign, and digits
 * with at most one decimal point. Exponents, `inf`/`nan` and `_`
 * separators are not part of this model.
 */
module Numbers {
  import opened Wrappers
  import Strings

  predicate IsDigit(c: char) {
    '0' <= c <= '9'
  }

  predicate AllDigits(s: string) {
    forall i | 0 <= i < |s| :: IsDigit(s[i])
  }

  function DigitValue(c: char): (d: nat)
    requires IsDigit(c)
    ensures d < 10
  {
    c as int - '0' as int
  }

  function DigitChar(d: nat): (c: char)
    requires d < 10
    ensures IsDigit(c) && DigitValue(c) == d
  {
    ('0' as int + d) as char
  }

  /** The value of a string of decimal digits, read most significant first. */
  function DigitsValue(s: string): nat
    requires AllDigits(s)
  {
    if |s| == 0 then 0 else 10 * DigitsValue(s[..|s| - 1]) + DigitValue(s[|s| - 1])
  }

  /** The shortest decimal numeral of `n`, as Python's `str(n)` writes it. */
  function ShowNat(n: nat): (s: string)
    ensures |s| > 0 && AllDigits(s)
    ensures Strings.NoSpace(s)
  {
    if n < 10 then [DigitChar(n)] else ShowNat(n / 10) + [DigitChar(n % 10)]
  }

  /** Reading back the numeral of `n` gives `n`. */
  lemma {:induction false} ShowNatRoundTrip(n: nat)
    ensures DigitsValue(ShowNat(n)) == n
  {
    if n >= 10 {
      var s := ShowNat(n);
      assert s[..|s| - 1] == ShowNat(n / 10);
      ShowNatRoundTrip(n / 10);
    }
  }

  function Pow10(k: nat): (p: nat)
    ensures p >= 1
  {
    if k == 0 then 1 else 10 * Pow10(k - 1)
  }

  /** An unsigned numeral: digits, or digits around one decimal point with
      at least one digit in all. */
  function ParseUnsigned(s: string): (r: Option<real>)
    ensures r.Some? ==> r.value >= 0.0
    ensures |s| > 0 && AllDigits(s) ==> r == Some(DigitsValue(s) as real)
  {
    if '.' in s then
      var i := Strings.IndexOf(s, '.');
      var whole := s[..i];
      var frac := s[i + 1..];
      if AllDigits(whole) && AllDigits(frac) && |whole| + |frac| > 0 then
        Some(DigitsValue(whole) as real + DigitsValue(frac) as real / Pow10(|frac|) as real)
      else None
    else if |s| > 0 && AllDigits(s) then Some(DigitsValue(s) as real)
    else None
  }

  /** Python's `float(text)` for the numerals above; `None` stands for the
      `ValueError` it raises otherwise. */
  function ParseFloat(text: string): (r: Option<real>)
    ensures |text| > 0 && AllDigits(text) ==> r == Some(DigitsValue(text) as real)
  {
    var t := Strings.Trim(text);
    var signed := |t| > 0 && (t[0] == '-' || t[0] == '+');
    var body := if signed then t[1..] else t;
    match ParseUnsigned(body)
    case None => None
    case Some(x) => Some(if signed && t[0] == '-' then -x else x)
  }

  /** A leading `-` negates a digit string's value. */
  lemma ParseFloatNegative(t: string)
    requires |t| > 0 && AllDigits(t)
    ensures ParseFloat("-" + t) == Some(-(DigitsValue(t) as real))
  {
    var s := "-" + t;
    assert s[0] == '-' && !Strings.IsWhitespace(s[0]);
    assert Strings.TrimLeft(s) == s;
    assert s[|s| - 1] == t[|t| - 1];
    assert !Strings.IsWhitespace(s[|s| - 1]);
    assert Strings.TrimRight(s) == s;
    assert Strings.Trim(s) == s;
    assert s[1..] == t;
    assert '.' !in t by {
      forall i | 0 <= i < |t| ensures t[i] != '.' { assert IsDigit(t[i]); }
    }
    assert ParseUnsigned(t) == Some(DigitsValue(t) as real);
  }

  /** A decimal point divides the digits after it by the matching power of
      ten: `float(w + "." + f)` is `w + f / 10^|f|` for any digit strings
      `w` and `f` with at least one digit between them. */
  lemma ParseFloatDecimal(w: string, f: string)
    requires AllDigits(w) && AllDigits(f) && |w| + |f| > 0
    ensures ParseFloat(w + "." + f)
            == Some(DigitsValue(w) as real + DigitsValue(f) as real / Pow10(|f|) as real)
  {
    var s := w + "." + f;
    assert s[0] == '.' || IsDigit(s[0]) by {
      if |w| > 0 { assert s[0] == w[0]; }
    }
    assert s[|s| - 1] == '.' || IsDigit(s[|s| - 1]) by {
      if |f| > 0 { assert s[|s| - 1] == f[|f| - 1]; }
    }
    ParseFloatUnsigned(s);
    ParseUnsignedDecimal(w, f);
  }

  /** Text that starts and ends with a digit or a point is parsed as it
      stands: nothing to trim and no sign. */
  lemma ParseFloatUnsigned(s: string)
    requires |s| > 0
    requires s[0] == '.' || IsDigit(s[0])
    requires s[|s| - 1] == '.' || IsDigit(s[|s| - 1])
    ensures ParseFloat(s) == ParseUnsigned(s)
  {
    assert !Strings.IsWhitespace(s[0]) && !Strings.IsWhitespace(s[|s| - 1]);
    assert Strings.TrimLeft(s) == s;
    assert Strings.TrimRight(s) == s;
    assert s[0] != '-' && s[0] != '+';
  }

  /** The unsigned reading of digits around one point. */
  lemma ParseUnsignedDecimal(w: string, f: string)
    requires AllDigits(w) && AllDigits(f) && |w| + |f| > 0
    ensures ParseUnsigned(w + "." + f)
            == Some(DigitsValue(w) as real + DigitsValue(f) as real / Pow10(|f|) as real)
  {
    var s := w + "." + f;
    PointAfter(w, f);
    ParseUnsignedAt(s, |w|, w, f);
  }

  /** Where the point sits in `w + "." + f`, and that it is the first. */
  lemma PointAfter(w: string, f: string)
    requires AllDigits(w)
    ensures var s := w + "." + f;
            && |w| < |s| && s[|w|] == '.' && '.' !in s[..|w|]
            && s[..|w|] == w && s[|w| + 1..] == f
  {
  }

  /** The unsigned reading splits at the first point. */
  lemma ParseUnsignedAt(s: string, i: nat, w: string, f: string)
    requires i < |s| && s[i] == '.' && '.' !in s[..i]
    requires s[..i] == w && s[i + 1..] == f
    requires AllDigits(w) && AllDigits(f) && |w| + |f| > 0
    ensures ParseUnsigned(s)
            == Some(DigitsValue(w) as real + DigitsValue(f) as real / Pow10(|f|) as real)
  {
  }

  /** The shape of an unsigned numeral, stated without parsing: digits and
      at most one point, and not empty or a lone point. */
  predicate Numeral(s: string) {
    && |s| > 0 && s != "."
    && (forall k | 0 <= k < |s| :: IsDigit(s[k]) || s[k] == '.')
    && (forall j, k | 0 <= j < k < |s| :: !(s[j] == '.' && s[k] == '.'))
  }

  /** A numeral with an optional leading `+` or `-`. */
  predicate SignedNumeral(t: string) {
    Numeral(t) || (|t| > 0 && (t[0] == '-' || t[0] == '+') && Numeral(t[1..]))
  }

  /** The unsigned reading succeeds exactly on numerals; everything else is
      `float`'s `ValueError`. */
  lemma ParseUnsignedAccepts(s: string)
    ensures ParseUnsigned(s).Some? <==> Numeral(s)
  {
    if '.' in s {
      var i := Strings.IndexOf(s, '.');
      var whole, frac := s[..i], s[i + 1..];
      assert forall k | 0 <= k < i :: s[k] == whole[k];
      assert forall k | i < k < |s| :: s[k] == frac[k - i - 1];
      if AllDigits(whole) && AllDigits(frac) && |whole| + |frac| > 0 {
        assert forall k | 0 <= k < |s| && k != i :: IsDigit(s[k]);
      }
      if Numeral(s) {
        assert forall k | 0 <= k < i :: s[k] != '.' by {
          forall k | 0 <= k < i ensures s[k] != '.' { assert s[..i][k] == s[k]; }
        }
        assert forall k | i < k < |s| :: s[k] != '.';
      }
    } else {
      assert forall k | 0 <= k < |s| :: s[k] != '.';
    }
  }

  /** `float(text)` succeeds exactly when the text, stripped of surrounding
      whitespace, is a numeral with an optional sign. */
  lemma ParseFloatAccepts(text: string)
    ensures ParseFloat(text).Some? <==> SignedNumeral(Strings.Trim(text))
  {
    var t := Strings.Trim(text);
    ParseUnsignedAccepts(t);
    if |t| > 0 {
      ParseUnsignedAccepts(t[1..]);
    }
  }

  /** `float("abc")` raises `ValueError`. */
  lemma RejectsLetters()
    ensures ParseFloat("abc") == None
  {
    ParseFloatAccepts("abc");
    assert Strings.Trim("abc") == "abc";
    assert !IsDigit("abc"[0]);
  }

  /** `float(".")` raises `ValueError`. */
  lemma RejectsLonePoint()
    ensures ParseFloat(".") == None
  {
    ParseFloatAccepts(".");
    assert Strings.Trim(".") == ".";
  }

  /** `float("1.2.3")` raises `ValueError`. */
  lemma RejectsSecondPoint()
    ensures ParseFloat("1.2.3") == None
  {
    ParseFloatAccepts("1.2.3");
    assert Strings.Trim("1.2.3") == "1.2.3";
    assert "1.2.3"[1] == '.' && "1.2.3"[3] == '.';
  }

  /** `float(str(n))` is `n`. */
  lemma ParseShowNat(n: nat)
    ensures ParseFloat(ShowNat(n)) == Some(n as real)
  {
    ShowNatRoundTrip(n);
  }
}

=== FILE: registry.dfy ===
/**
 * The per-request side: `get_webpack`, which hands out at most one
 * `Webpack` facade per configuration name and request, and the facade's
 * `stats` property, which loads the stats file at most once per facade.
 */
module Registry {
  import opened Wrappers
  import Loader
  import Bundle
  import opened Manifest

  /** `request.registry.webpack`: the configurations by name. */
  type Configs = map<string, Loader.State>

  /** A `Webpack` facade: its configuration name, the state it was built
      with, and the stats document once its `stats` property has run. The
      state is the configuration's `WebpackState` itself, shared with the
      registry, so a facade's changes to it are written back by the
      callers (`Template.GetGraph`). */
  datatype Facade = Facade(name: string, state: Loader.State, stats: Option<Stats>)

  /** `request._webpack_map`: the facades built so far in one request. */
  type Memo = map<string, Facade>

  /** `Webpack.__init__` raises `RuntimeError` for an unknown name. */
  datatype FacadeError = UnknownConfig(name: string)

  /** Every facade is filed under its own name. */
  predicate WellKeyed(memo: Memo) {
    forall n | n in memo :: memo[n].name == n
  }

  /** The facade's document is the one in its state's cache slot: the
      `stats` property returns the very object `load_stats` stored, so
      writing URLs into one writes them into the other. */
  predicate Coherent(f: Facade) {
    f.stats.Some? ==> f.state.stats == f.stats
  }

  /** Each facade of a request works on its configuration's shared state. */
  predicate Synced(memo: Memo, configs: Configs) {
    forall n | n in memo :: n in configs && configs[n] == memo[n].state && Coherent(memo[n])
  }

  /** `Webpack(request, name)`: a facade with nothing loaded yet, for a
      known name only. */
  function NewFacade(configs: Configs, name: string): (r: Result<Facade, FacadeError>)
    ensures r.Ok? <==> name in configs
    ensures r.Ok? ==> r.value.name == name && r.value.state == configs[name] && r.value.stats.None?
    ensures r.Ok? ==> Coherent(r.value)
    ensures r.Err? ==> r.error == UnknownConfig(name)
  {
    if name in configs then Ok(Facade(name, configs[name], None)) else Err(UnknownConfig(name))
  }

  /**
   * `get_webpack(request, name)`: the memoised facade when there is one;
   * otherwise a new one, which is then memoised. An unknown name raises
   * before anything is stored.
   */
  function GetWebpack(memo: Memo, configs: Configs, name: string): (r: Result<(Facade, Memo), FacadeError>)
    ensures name in memo ==> r == Ok((memo[name], memo))
    ensures name !in memo ==> (r.Ok? <==> name in configs)
    ensures r.Ok? ==> r.value.1 == memo[name := r.value.0]
    ensures r.Ok? && name !in memo ==> r.value.0 == Facade(name, configs[name], None)
    ensures r.Err? ==> r.error == UnknownConfig(name)
  {
    if name in memo then Ok((memo[name], memo))
    else
      var f :- NewFacade(configs, name);
      Ok((f, memo[name := f]))
  }

  /** The memo stays keyed by facade name, and each successful call adds at
      most the one name asked for. */
  lemma GetWebpackKeepsMemoWellKeyed(memo: Memo, configs: Configs, name: string)
    requires WellKeyed(memo)
    ensures var r := GetWebpack(memo, configs, name);
            r.Ok? ==> WellKeyed(r.value.1) && r.value.0.name == name
                      && r.value.1.Keys == memo.Keys + {name}
  {
  }

  /** Filing a facade under its own name keeps a memo well keyed. */
  lemma WellKeyedUpdate(memo: Memo, f: Facade)
    requires WellKeyed(memo)
    ensures WellKeyed(memo[f.name := f])
  {
  }

  /** A facade handed out for a synced memo works on the registry's state,
      and the memo stays synced. */
  lemma GetWebpackKeepsSynced(memo: Memo, configs: Configs, name: string)
    requires Synced(memo, configs)
    ensures var r := GetWebpack(memo, configs, name);
            r.Ok? ==> && Synced(r.value.1, configs)
                      && r.value.0.state == configs[name] && Coherent(r.value.0)
  {
  }

  /** Asking twice for the same name in one request gives the same facade
      and leaves the memo as the first call left it. */
  lemma GetWebpackIdempotent(memo: Memo, configs: Configs, name: string)
    requires GetWebpack(memo, configs, name).Ok?
    ensures var r1 := GetWebpack(memo, configs, name).value;
            GetWebpack(r1.1, configs, name) == Ok(r1)
  {
  }

  /** The result of reading a facade's `stats`: how it went, the facade
      afterwards, and the reads and time used. */
  datatype StatsRead = StatsRead(outcome: Loader.Outcome, facade: Facade, io: Loader.Io)

  /**
   * The `stats` property, a `reify`: the first successful read is stored on
   * the facade and every later read returns it without loading; a failed
   * load stores nothing. Loading uses `load_stats` with its default
   * `cache` and `wait`; the state's new cache slot is carried in the
   * facade.
   */
  function FacadeStats(f: Facade, o: Loader.Oracle, io: Loader.Io, fuel: nat): (r: StatsRead)
    ensures r.facade.name == f.name && r.facade.state.config == f.state.config
    ensures f.stats.Some? ==> r == StatsRead(Loader.Loaded(f.stats.value), f, io)
    ensures f.stats.None? ==>
              var l := Loader.LoadStats(f.state, None, None, o, io, fuel);
              && r.outcome == l.outcome && r.io == l.io && r.facade.state == l.state
    ensures r.outcome.Loaded? ==> r.facade.stats == Some(r.outcome.stats)
    ensures !r.outcome.Loaded? ==> r.facade.stats == f.stats
    ensures Coherent(f) ==> Coherent(r.facade)
  {
    if f.stats.Some? then StatsRead(Loader.Loaded(f.stats.value), f, io)
    else
      var l := Loader.LoadStats(f.state, None, None, o, io, fuel);
      match l.outcome
      case Loaded(s) => StatsRead(l.outcome, Facade(f.name, l.state, Some(s)), l.io)
      case _ => StatsRead(l.outcome, f.(state := l.state), l.io)
  }

  /** Once a facade's `stats` has been read, reading it again returns the
      same document and reads nothing, whatever the file now says. */
  lemma FacadeStatsOnce(f: Facade, o1: Loader.Oracle, io1: Loader.Io, fuel1: nat,
                        o2: Loader.Oracle, io2: Loader.Io, fuel2: nat)
    requires FacadeStats(f, o1, io1, fuel1).outcome.Loaded?
    ensures var r1 := FacadeStats(f, o1, io1, fuel1);
            FacadeStats(r1.facade, o2, io2, fuel2) == StatsRead(r1.outcome, r1.facade, io2)
  {
  }

  /** The result of `Webpack.get_bundle`: the assets or the error, the
      facade afterwards, and the reads and time used. */
  datatype BundleRead = BundleRead(assets: Result<seq<Chunk>, BundleFailure>, facade: Facade, io: Loader.Io)

  /** Why `get_bundle` raised: loading the stats failed, or the document
      does not resolve the bundle. `StillCompiling` is the model's bound on
      polls running out. */
  datatype BundleFailure = LoadFailed(error: Loader.LoadError) | StillCompiling | Unresolved(reason: Bundle.BundleError)

  /**
   * `Webpack.get_bundle(bundle, extensions)`: read `stats` (loading it at
   * most once per facade), resolve the bundle on it, and keep the URLs that
   * resolution wrote into the document.
   */
  function GetBundle(f: Facade, mt: Bundle.Matchers, staticUrl: string -> string, bundle: string,
                     ext: Bundle.Extensions, o: Loader.Oracle, io: Loader.Io, fuel: nat): (r: BundleRead)
    ensures r.facade.name == f.name && r.facade.state.config == f.state.config
    ensures var s := FacadeStats(f, o, io, fuel);
            && r.io == s.io
            && (s.outcome.Failed? ==> r == BundleRead(Err(LoadFailed(s.outcome.error)), s.facade, s.io))
            && (s.outcome.Blocked? ==> r == BundleRead(Err(StillCompiling), s.facade, s.io))
            && (s.outcome.Loaded? ==>
                  var g := Bundle.GetBundle(s.outcome.stats, f.state.config, mt, staticUrl, bundle, ext);
                  && (g.Ok? ==> && r.assets == Ok(g.value.assets) && r.facade.stats == Some(g.value.stats)
                                && r.facade.state.stats == Some(g.value.stats))
                  && (g.Err? ==> r.assets == Err(Unresolved(g.error)) && r.facade == s.facade))
    ensures Coherent(f) ==> Coherent(r.facade)
  {
    var s := FacadeStats(f, o, io, fuel);
    match s.outcome
    case Failed(e) => BundleRead(Err(LoadFailed(e)), s.facade, s.io)
    case Blocked => BundleRead(Err(StillCompiling), s.facade, s.io)
    case Loaded(stats) =>
      match Bundle.GetBundle(stats, f.state.config, mt, staticUrl, bundle, ext)
      case Ok(res) =>
        var slot := s.facade.state.(stats := Some(res.stats));
        BundleRead(Ok(res.assets), s.facade.(state := slot, stats := Some(res.stats)), s.io)
      case Err(e) => BundleRead(Err(Unresolved(e)), s.facade, s.io)
  }

  /**
   * Within one request, asking a facade for the same bundle twice gives the
   * same assets the second time, without reading the file again, even when
   * the second call builds static URLs differently: the first call's URLs
   * were written into the facade's document.
   */
  lemma RepeatedGetBundle(f: Facade, mt: Bundle.Matchers, url1: string -> string, url2: string -> string,
                          bundle: string, ext: Bundle.Extensions,
                          o1: Loader.Oracle, io1: Loader.Io, fuel1: nat,
                          o2: Loader.Oracle, io2: Loader.Io, fuel2: nat)
    requires GetBundle(f, mt, url1, bundle, ext, o1, io1, fuel1).assets.Ok?
    ensures var r1 := GetBundle(f, mt, url1, bundle, ext, o1, io1, fuel1);
            GetBundle(r1.facade, mt, url2, bundle, ext, o2, io2, fuel2) == BundleRead(r1.assets, r1.facade, io2)
  {
    var s := FacadeStats(f, o1, io1, fuel1);
    var stats := s.outcome.stats;
    var r1 := GetBundle(f, mt, url1, bundle, ext, o1, io1, fuel1);
    Bundle.GetBundleIdempotent(stats, f.state.config, mt, url1, url2, bundle, ext);
    assert r1.facade.stats.Some?;
    assert r1.facade.state.config == f.state.config;
  }

  /**
   * Without debug, a fresh facade on the state a successful `get_bundle`
   * left behind (the next request's facade) gets the same assets from the
   * state's cache slot and reads nothing, whatever the file says by then
   * and however that request builds static URLs.
   */
  lemma FreshFacadeUsesSlot(f: Facade, mt: Bundle.Matchers, url1: string -> string, url2: string -> string,
                            bundle: string, ext: Bundle.Extensions,
                            o1: Loader.Oracle, io1: Loader.Io, fuel1: nat,
                            o2: Loader.Oracle, io2: Loader.Io, fuel2: nat)
    requires GetBundle(f, mt, url1, bundle, ext, o1, io1, fuel1).assets.Ok?
    requires !f.state.config.debug
    ensures var r1 := GetBundle(f, mt, url1, bundle, ext, o1, io1, fuel1);
            var r2 := GetBundle(Facade(f.name, r1.facade.state, None), mt, url2, bundle, ext, o2, io2, fuel2);
            r2.assets == r1.assets && r2.io == io2
  {
    var s := FacadeStats(f, o1, io1, fuel1);
    var cfg := f.state.config;
    var r1 := Bundle.GetBundle(s.outcome.stats, cfg, mt, url1, bundle, ext).value;
    var f2 := Facade(f.name, GetBundle(f, mt, url1, bundle, ext, o1, io1, fuel1).facade.state, None);
    assert f2.state == Loader.State(cfg, Some(r1.stats));
    assert Loader.CacheHit(f2.state, None);
    assert FacadeStats(f2, o2, io2, fuel2).outcome == Loader.Loaded(r1.stats);
    Bundle.GetBundleIdempotent(s.outcome.stats, cfg, mt, url1, url2, bundle, ext);
  }
}

=== FILE: resource.dfy ===
/**
 * Where the stats file (and the bundle directory) lives: an absolute
 * filesystem path, or an asset specification `package:relative/path`.
 * A location that is neither is taken relative to the application's root
 * package. Opening the file is not modelled; `Locate` models how `open`
 * decides which of the two readers to use.
 */
module Resource {
  import opened Wrappers
  import Strings

  /** `StaticResource`: a wrapper around a path or asset specification. */
  datatype StaticResource = StaticResource(path: string)

  /** What `open` reads from. */
  datatype Location = AbsolutePath(file: string) | PackageAsset(package: string, filename: string)

  /** `open` unpacks `path.split(':')` into two names; any other number of
      pieces raises `ValueError`. */
  datatype SpecError = NotOnePackageSeparator(path: string)

  /** The path already says where it lives: it names a package or is absolute. */
  predicate Qualified(path: string) {
    ':' in path || Strings.StartsWith(path, "/")
  }

  /**
   * The rule shared by `StaticResource.create` and the bundle-directory
   * setting: an unqualified location is prefixed with `root:`, a qualified
   * one is kept. The result is always qualified, and it differs from the
   * input exactly when the input was unqualified.
   */
  function Qualify(path: string, root: string): (r: string)
    ensures Qualified(r)
    ensures r == path <==> Qualified(path)
    ensures r != path ==> r == root + ":" + path
  {
    if !Qualified(path) then
      assert (root + ":" + path)[|root|] == ':';
      root + ":" + path
    else path
  }

  /** `StaticResource.create(path, root_package)`. */
  function Create(path: string, root: string): (r: StaticResource)
    ensures Qualified(r.path)
    ensures r.path == path <==> Qualified(path)
    ensures r.path != path ==> r.path == root + ":" + path
  {
    StaticResource(Qualify(path, root))
  }

  /** Creating a resource from a created resource's path changes nothing,
      whatever root package is given the second time. */
  lemma CreateIdempotent(path: string, root: string, root2: string)
    ensures Create(Create(path, root).path, root2) == Create(path, root)
  {
  }

  /** `str(resource)`, used in error messages: the path, quoted, inside
      `Resource(...)`, so the message names the path it failed on. */
  function Describe(res: StaticResource): (r: string)
    ensures Strings.StartsWith(r, "Resource('") && Strings.EndsWith(r, "')")
    ensures |r| == |res.path| + 12 && r[10..|r| - 2] == res.path
  {
    "Resource('" + res.path + "')"
  }

  /**
   * The dispatch in `StaticResource.open`: a path starting with `/` is a
   * file; anything else must split at `:` into exactly a package and a
   * file name.
   */
  function Locate(res: StaticResource): (r: Result<Location, SpecError>)
    ensures Strings.StartsWith(res.path, "/") ==> r == Ok(AbsolutePath(res.path))
    ensures !Strings.StartsWith(res.path, "/") ==>
              (r.Ok? <==> multiset(res.path)[':'] == 1)
    ensures r.Ok? && r.value.PackageAsset? ==>
              && r.value.package + ":" + r.value.filename == res.path
              && ':' !in r.value.package && ':' !in r.value.filename
    ensures r.Err? ==> r.error == NotOnePackageSeparator(res.path)
  {
    if Strings.StartsWith(res.path, "/") then Ok(AbsolutePath(res.path))
    else
      var parts := Strings.Split(res.path, ':');
      if |parts| == 2 then
        assert parts[1..] == [parts[1]];
        assert parts[0] in parts && parts[1] in parts;
        Ok(PackageAsset(parts[0], parts[1]))
      else Err(NotOnePackageSeparator(res.path))
  }

  /**
   * What `open` does with a created resource, for a root package name that
   * is neither absolute nor holds a `:`: an unqualified path becomes that
   * package's asset, an absolute path stays a file, and a path with two or
   * more `:` cannot be opened at all.
   */
  lemma LocateCreated(path: string, root: string)
    requires ':' !in root && !Strings.StartsWith(root, "/")
    ensures !Qualified(path) ==> Locate(Create(path, root)) == Ok(PackageAsset(root, path))
    ensures Strings.StartsWith(path, "/") ==> Locate(Create(path, root)) == Ok(AbsolutePath(path))
    ensures !Strings.StartsWith(path, "/") && multiset(path)[':'] == 1 ==>
              Locate(Create(path, root)).Ok? && Locate(Create(path, root)).value.PackageAsset?
    ensures !Strings.StartsWith(path, "/") && multiset(path)[':'] >= 2 ==>
              Locate(Create(path, root)).Err?
  {
    if !Qualified(path) {
      var s := root + ":" + path;
      assert Strings.Join([root, path], ':') == s by {
        assert [root, path][1..] == [path];
      }
      Strings.SplitJoin([root, path], ':');
      if |root| > 0 {
        assert s[..1] == root[..1];
      }
      assert !Strings.StartsWith(s, "/");
    }
  }
}

=== FILE: settings.dfy ===
/**
 * Reading one named webpack configuration out of the application's flat
 * settings mapping (`WebpackState.__init__` and `_get_setting`).
 *
 * Settings are keyed `webpack.<setting>` for the DEFAULT configuration and
 * `webpack.<name>.<setting>` for a named one. Most settings of a named
 * configuration fall back to DEFAULT's; the ones that say where files live
 * do not.
 */
module Settings {
  import opened Wrappers
  import Strings
  import Numbers
  import Resource

  /** A raw settings value: a string from an ini file, or a value the
      application put in the mapping itself. */
  datatype Value = Text(text: string) | Flag(flag: bool) | Int(number: int) | Items(items: seq<string>)

  type SettingsMap = map<string, Value>

  /** The configuration every other one inherits from. */
  const DefaultName: string := "DEFAULT"

  /** A setting that cannot be converted to the type the state needs; the
      source raises `ValueError` or `TypeError` here. */
  datatype ConfigError = BadSetting(setting: string)

  /** One resolved configuration: the fields of a `WebpackState` other than
      its stats cache. */
  datatype Config = Config(
    name: string,
    debug: bool,
    staticView: bool,
    staticViewPath: string,
    staticViewName: Value,
    statsFile: Resource.StaticResource,
    timeout: real,
    cacheMaxAge: Option<real>,
    ignore: seq<string>,
    ignoreRe: seq<string>)

  /** The settings key of `setting` for configuration `name`. */
  function Key(name: string, setting: string): string {
    if name == DefaultName then "webpack." + setting else "webpack." + name + "." + setting
  }

  /**
   * `_get_setting`: DEFAULT reads `webpack.<setting>`; a named configuration
   * reads `webpack.<name>.<setting>` and, when that is absent, DEFAULT's
   * value if `inherit` is set and the hard default otherwise.
   */
  function GetSetting(settings: SettingsMap, name: string, setting: string,
                      default: Option<Value>, inherit: bool): (r: Option<Value>)
    ensures name == DefaultName ==>
              r == if Key(DefaultName, setting) in settings
                   then Some(settings[Key(DefaultName, setting)]) else default
    ensures name != DefaultName && Key(name, setting) in settings ==>
              r == Some(settings[Key(name, setting)])
    ensures name != DefaultName && Key(name, setting) !in settings ==>
              r == if inherit then GetSetting(settings, DefaultName, setting, default, true) else default
    ensures default.Some? ==> r.Some?
    decreases if name == DefaultName then 0 else 1
  {
    if name == DefaultName then
      var k := Key(DefaultName, setting);
      if k in settings then Some(settings[k]) else default
    else
      var k := Key(name, setting);
      if k in settings then Some(settings[k])
      else if inherit then GetSetting(settings, DefaultName, setting, default, true)
      else default
  }

  /** A setting's value depends only on the two keys it may be read from:
      settings that agree there give the same value. */
  lemma GetSettingLocal(s1: SettingsMap, s2: SettingsMap, name: string, setting: string,
                        default: Option<Value>, inherit: bool)
    requires forall k | k == Key(name, setting) || k == Key(DefaultName, setting) ::
               (k in s1 <==> k in s2) && (k in s1 ==> s1[k] == s2[k])
    ensures GetSetting(s1, name, setting, default, inherit)
         == GetSetting(s2, name, setting, default, inherit)
  {
    var kn := Key(name, setting);
    var kd := Key(DefaultName, setting);
    assert (kn in s1 <==> kn in s2) && (kn in s1 ==> s1[kn] == s2[kn]);
    assert (kd in s1 <==> kd in s2) && (kd in s1 ==> s1[kd] == s2[kd]);
  }

  /** The strings pyramid's `asbool` reads as true, after stripping and
      lower-casing. */
  const Truthy: set<string> := {"t", "true", "y", "yes", "on", "1"}

  /** pyramid's `asbool`: `None` is false, a bool is itself, anything else is
      true when its text form is one of `Truthy`. */
  function AsBool(v: Option<Value>): (b: bool)
    ensures v.Some? && v.value.Text? ==> (b <==> Strings.Lower(Strings.Trim(v.value.text)) in Truthy)
    ensures v.None? || v == Some(Flag(false)) || (v.Some? && v.value.Items?) ==> !b
    ensures v == Some(Flag(true)) ==> b
    ensures v.Some? && v.value.Int? ==> (b <==> v.value.number == 1)
  {
    match v
    case None => false
    case Some(Flag(f)) => f
    case Some(Text(s)) => Strings.Lower(Strings.Trim(s)) in Truthy
    // `str(n)` is "1" for n == 1 only
    case Some(Int(n)) => n == 1
    // `str(list)` starts with "[", never one of `Truthy`
    case Some(Items(_)) => false
  }

  /** The word list of one settings value, as pyramid's `aslist` makes it:
      a string is split on whitespace (line breaks included); a list has
      each of its items split that way. */
  function AsList(v: Value, setting: string): (r: Result<seq<string>, ConfigError>)
    ensures r.Ok? ==> forall w | w in r.value :: |w| > 0 && Strings.NoSpace(w)
    ensures v.Text? ==> r == Ok(Strings.Words(v.text))
    ensures v.Items? ==> r == Ok(WordsOfAll(v.items))
    ensures r.Err? <==> v.Flag? || v.Int?
  {
    match v
    case Text(s) => Ok(Strings.Words(s))
    case Items(xs) => Ok(WordsOfAll(xs))
    case _ => Err(BadSetting(setting))
  }

  /** Every item's words, in order. */
  function WordsOfAll(xs: seq<string>): (ws: seq<string>)
    ensures forall w | w in ws :: |w| > 0 && Strings.NoSpace(w)
  {
    if |xs| == 0 then [] else Strings.Words(xs[0]) + WordsOfAll(xs[1..])
  }

  /** Splitting every item is splitting the items joined by spaces: `aslist`
      treats a list like the string of its items. */
  lemma {:induction false} WordsOfAllJoin(xs: seq<string>)
    requires |xs| > 0
    ensures WordsOfAll(xs) == Strings.Words(Strings.Join(xs, ' '))
    decreases |xs|
  {
    if |xs| == 1 {
      assert WordsOfAll(xs[1..]) == [];
      assert Strings.Words(xs[0]) + [] == Strings.Words(xs[0]);
    } else {
      assert Strings.IsWhitespace(' ');
      Strings.WordsBreakAtSpace(xs[0], ' ', Strings.Join(xs[1..], ' '));
      WordsOfAllJoin(xs[1..]);
    }
  }

  /** Items that are already single words are kept as they are. */
  lemma {:induction false} WordsOfWords(xs: seq<string>)
    requires forall x | x in xs :: |x| > 0 && Strings.NoSpace(x)
    ensures WordsOfAll(xs) == xs
    decreases |xs|
  {
    if |xs| > 0 {
      Strings.WordsJoin([xs[0]]);
      assert forall x | x in xs[1..] :: x in xs;
      WordsOfWords(xs[1..]);
      assert xs == [xs[0]] + xs[1..];
    }
  }

  /** Python's `float(value)`. */
  function AsFloat(v: Value, setting: string): (r: Result<real, ConfigError>)
    ensures v.Int? ==> r == Ok(v.number as real)
    ensures v.Flag? ==> r == Ok(if v.flag then 1.0 else 0.0)
    ensures v.Text? ==> (r.Ok? <==> Numbers.ParseFloat(v.text).Some?)
    ensures v.Text? && r.Ok? ==> r.value == Numbers.ParseFloat(v.text).value
    ensures v.Items? ==> r.Err?
  {
    match v
    case Int(n) => Ok(n as real)
    case Flag(f) => Ok(if f then 1.0 else 0.0)
    case Text(s) =>
      (match Numbers.ParseFloat(s)
       case Some(x) => Ok(x)
       case None => Err(BadSetting(setting)))
    case Items(_) => Err(BadSetting(setting))
  }

  /** Seconds in ten years of 365 days: the `future` expiry. */
  const TenYears: real := (10 * 365 * 24 * 60 * 60) as real

  /** Expiry used for the static view when none is configured and debug is
      off. */
  const DefaultMaxAge: real := 3600.0

  /**
   * The `cache_max_age` derivation: unset gives an hour, or no expiry in
   * debug mode; `future` gives ten years; anything else is its numeric value.
   * There is no expiry exactly when the setting is unset and debug is on.
   */
  function CacheMaxAge(raw: Option<Value>, debug: bool): (r: Result<Option<real>, ConfigError>)
    ensures r == Ok(None) <==> raw.None? && debug
    ensures raw.None? && !debug ==> r == Ok(Some(DefaultMaxAge))
    ensures raw == Some(Text("future")) ==> r == Ok(Some(TenYears))
    ensures raw.Some? && raw != Some(Text("future")) ==>
              (r.Ok? <==> AsFloat(raw.value, "cache_max_age").Ok?)
              && (r.Ok? ==> r.value == Some(AsFloat(raw.value, "cache_max_age").value))
  {
    match raw
    case None => if debug then Ok(None) else Ok(Some(DefaultMaxAge))
    case Some(v) =>
      if v == Text("future") then Ok(Some(TenYears))
      else
        var x :- AsFloat(v, "cache_max_age");
        Ok(Some(x))
  }

  /** The settings the tests pin down: `future` and a plain number. */
  lemma CacheMaxAgeExamples(debug: bool)
    ensures CacheMaxAge(Some(Text("future")), debug).value.value > 100000.0
    ensures CacheMaxAge(Some(Text("1234")), debug) == Ok(Some(1234.0))
    ensures CacheMaxAge(None, true) == Ok(None)
    ensures CacheMaxAge(None, false) == Ok(Some(3600.0))
  {
    assert Numbers.AllDigits("1234");
    assert Numbers.DigitsValue("1234") == 1234 by {
      assert "1234"[..3] == "123";
      assert "123"[..2] == "12";
      assert "12"[..1] == "1";
    }
  }

  /**
   * Where the static view serves bundles from: `webpack-<name>` when no
   * `bundle_dir` is set, otherwise the directory qualified by the root
   * package exactly as `StaticResource.create` qualifies a path.
   */
  function StaticViewPath(bundleDir: Option<Value>, name: string, root: string): (r: Result<string, ConfigError>)
    ensures bundleDir.None? ==> r == Ok("webpack-" + name)
    ensures bundleDir.Some? && bundleDir.value.Text? ==>
              r == Ok(Resource.Create(bundleDir.value.text, root).path)
    ensures r.Err? <==> bundleDir.Some? && !bundleDir.value.Text?
  {
    match bundleDir
    case None => Ok("webpack-" + name)
    case Some(Text(d)) => Ok(Resource.Qualify(d, root))
    case Some(_) => Err(BadSetting("bundle_dir"))
  }

  /** The stats file resource, from the `stats_file` setting: always a
      qualified path, which is the setting itself exactly when that is
      already qualified and the setting under the root package otherwise. */
  function StatsFile(raw: Value, root: string): (r: Result<Resource.StaticResource, ConfigError>)
    ensures r.Ok? <==> raw.Text?
    ensures r.Ok? ==> Resource.Qualified(r.value.path)
    ensures r.Ok? ==> (r.value.path == raw.text <==> Resource.Qualified(raw.text))
    ensures r.Ok? && !Resource.Qualified(raw.text) ==> r.value.path == root + ":" + raw.text
    ensures r.Ok? ==> r.value == Resource.Create(raw.text, root)
  {
    match raw
    case Text(p) => Ok(Resource.Create(p, root))
    case _ => Err(BadSetting("stats_file"))
  }

  /** The stats file read when none is configured. */
  const DefaultStatsFile: string := "webpack-stats.json"

  lemma DefaultStatsFileUnqualified()
    ensures !Resource.Qualified(DefaultStatsFile)
  {
    var s := DefaultStatsFile;
    assert s[..1] == "w";
    assert forall i | 0 <= i < |s| :: s[i] != ':';
  }

  /** The default ignore globs: hot-update scripts and source maps. */
  const DefaultIgnore: seq<string> := ["*.hot-update.js", "*.map"]

  /** The field values as the source computes them, one function per line
      of `WebpackState.__init__`. */
  function DebugOf(settings: SettingsMap, name: string): bool {
    AsBool(GetSetting(settings, name, "debug", Some(Flag(false)), true))
  }

  function StaticViewOf(settings: SettingsMap, name: string): bool {
    AsBool(GetSetting(settings, name, "static_view", Some(Flag(true)), false))
  }

  function ViewPathOf(settings: SettingsMap, root: string, name: string): Result<string, ConfigError> {
    StaticViewPath(GetSetting(settings, name, "bundle_dir", None, false), name, root)
  }

  function ViewNameOf(settings: SettingsMap, name: string): Value {
    GetSetting(settings, name, "static_view_name", Some(Text("webpack-" + name)), false).value
  }

  function StatsFileOf(settings: SettingsMap, root: string, name: string): Result<Resource.StaticResource, ConfigError> {
    StatsFile(GetSetting(settings, name, "stats_file", Some(Text(DefaultStatsFile)), false).value, root)
  }

  function TimeoutOf(settings: SettingsMap, name: string): Result<real, ConfigError> {
    AsFloat(GetSetting(settings, name, "timeout", Some(Int(0)), true).value, "timeout")
  }

  function MaxAgeOf(settings: SettingsMap, name: string): Result<Option<real>, ConfigError> {
    CacheMaxAge(GetSetting(settings, name, "cache_max_age", None, true), DebugOf(settings, name))
  }

  function IgnoreOf(settings: SettingsMap, name: string): Result<seq<string>, ConfigError> {
    AsList(GetSetting(settings, name, "ignore", Some(Items(DefaultIgnore)), true).value, "ignore")
  }

  function IgnoreReOf(settings: SettingsMap, name: string): Result<seq<string>, ConfigError> {
    AsList(GetSetting(settings, name, "ignore_re", Some(Items([])), true).value, "ignore_re")
  }

  /**
   * `WebpackState.__init__`: every field derived from the settings, in the
   * source's order, the first unconvertible setting aborting construction.
   * The stats file is always qualified, and expiry is switched off only in
   * debug mode.
   */
  function NewState(settings: SettingsMap, root: string, name: string): (r: Result<Config, ConfigError>)
    ensures r.Ok? ==> r.value.name == name
    ensures r.Ok? ==> Resource.Qualified(r.value.statsFile.path)
    ensures r.Ok? && r.value.cacheMaxAge.None? ==> r.value.debug
    ensures r.Ok? ==> forall w | w in r.value.ignore :: |w| > 0 && Strings.NoSpace(w)
    ensures r.Ok? <==> && ViewPathOf(settings, root, name).Ok? && StatsFileOf(settings, root, name).Ok?
                       && TimeoutOf(settings, name).Ok? && MaxAgeOf(settings, name).Ok?
                       && IgnoreOf(settings, name).Ok? && IgnoreReOf(settings, name).Ok?
  {
    var viewPath :- ViewPathOf(settings, root, name);
    var statsFile :- StatsFileOf(settings, root, name);
    var timeout :- TimeoutOf(settings, name);
    var maxAge :- MaxAgeOf(settings, name);
    var ignore :- IgnoreOf(settings, name);
    var ignoreRe :- IgnoreReOf(settings, name);
    Ok(Config(name, DebugOf(settings, name), StaticViewOf(settings, name), viewPath,
              ViewNameOf(settings, name), statsFile, timeout, maxAge, ignore, ignoreRe))
  }

  /** A successfully built state holds exactly the per-line field values. */
  lemma NewStateFields(settings: SettingsMap, root: string, name: string)
    requires NewState(settings, root, name).Ok?
    ensures var c := NewState(settings, root, name).value;
            && c.debug == DebugOf(settings, name)
            && c.staticView == StaticViewOf(settings, name)
            && c.staticViewPath == ViewPathOf(settings, root, name).value
            && c.staticViewName == ViewNameOf(settings, name)
            && c.statsFile == StatsFileOf(settings, root, name).value
            && c.timeout == TimeoutOf(settings, name).value
            && c.cacheMaxAge == MaxAgeOf(settings, name).value
            && c.ignore == IgnoreOf(settings, name).value
            && c.ignoreRe == IgnoreReOf(settings, name).value
  {
  }

  /** With no settings at all, every field takes its documented default. */
  lemma EmptySettingsDefaults(root: string, name: string)
    ensures NewState(map[], root, name) == Ok(Config(
              name, false, true, "webpack-" + name, Text("webpack-" + name),
              Resource.StaticResource(root + ":" + DefaultStatsFile),
              0.0, Some(DefaultMaxAge), DefaultIgnore, []))
  {
    EmptySettingsLocations(root, name);
    EmptySettingsNumbers(name);
    EmptySettingsIgnore(name);
    EmptySettingsIgnoreRe(name);
  }

  lemma EmptySettingsLocations(root: string, name: string)
    ensures DebugOf(map[], name) == false
    ensures StaticViewOf(map[], name) == true
    ensures ViewPathOf(map[], root, name) == Ok("webpack-" + name)
    ensures ViewNameOf(map[], name) == Text("webpack-" + name)
    ensures StatsFileOf(map[], root, name) == Ok(Resource.StaticResource(root + ":" + DefaultStatsFile))
  {
    DefaultStatsFileUnqualified();
  }

  lemma EmptySettingsNumbers(name: string)
    ensures TimeoutOf(map[], name) == Ok(0.0)
    ensures MaxAgeOf(map[], name) == Ok(Some(DefaultMaxAge))
  {
    assert GetSetting(map[], name, "timeout", Some(Int(0)), true) == Some(Int(0));
    assert AsFloat(Int(0), "timeout") == Ok(0.0);
    assert DebugOf(map[], name) == false;
  }

  lemma EmptySettingsIgnore(name: string)
    ensures IgnoreOf(map[], name) == Ok(DefaultIgnore)
  {
    var g := GetSetting(map[], name, "ignore", Some(Items(DefaultIgnore)), true);
    assert g == Some(Items(DefaultIgnore));
    assert IgnoreOf(map[], name) == AsList(g.value, "ignore");
    DefaultIgnoreWords();
  }

  lemma EmptySettingsIgnoreRe(name: string)
    ensures IgnoreReOf(map[], name) == Ok([])
  {
    assert GetSetting(map[], name, "ignore_re", Some(Items([])), true) == Some(Items([]));
    assert AsList(Items([]), "ignore_re") == Ok([]);
  }

  /** The default ignore globs are single words, so `aslist` keeps them. */
  lemma DefaultIgnoreWords()
    ensures WordsOfAll(DefaultIgnore) == DefaultIgnore
  {
    var a := DefaultIgnore[0];
    var b := DefaultIgnore[1];
    assert forall i | 0 <= i < |a| :: a[i] as int > 32 && a[i] as int < 127;
    assert forall i | 0 <= i < |b| :: b[i] as int > 32 && b[i] as int < 127;
    assert Strings.NoSpace(a) && Strings.NoSpace(b);
    WordsOfWords(DefaultIgnore);
  }

  /**
   * A named configuration takes DEFAULT's debug flag, timeout, ignore lists
   * and expiry for every one of those it does not set itself.
   */
  lemma NamedInheritsDefault(settings: SettingsMap, root: string, name: string)
    requires name != DefaultName
    requires Key(name, "debug") !in settings && Key(name, "timeout") !in settings
    requires Key(name, "cache_max_age") !in settings
    requires Key(name, "ignore") !in settings && Key(name, "ignore_re") !in settings
    requires NewState(settings, root, name).Ok? && NewState(settings, root, DefaultName).Ok?
    ensures NewState(settings, root, name).value.debug == NewState(settings, root, DefaultName).value.debug
    ensures NewState(settings, root, name).value.timeout == NewState(settings, root, DefaultName).value.timeout
    ensures NewState(settings, root, name).value.cacheMaxAge == NewState(settings, root, DefaultName).value.cacheMaxAge
    ensures NewState(settings, root, name).value.ignore == NewState(settings, root, DefaultName).value.ignore
    ensures NewState(settings, root, name).value.ignoreRe == NewState(settings, root, DefaultName).value.ignoreRe
  {
    NewStateFields(settings, root, name);
    NewStateFields(settings, root, DefaultName);
    assert DebugOf(settings, name) == DebugOf(settings, DefaultName);
    assert TimeoutOf(settings, name) == TimeoutOf(settings, DefaultName);
    assert MaxAgeOf(settings, name) == MaxAgeOf(settings, DefaultName);
    assert IgnoreOf(settings, name) == IgnoreOf(settings, DefaultName);
    assert IgnoreReOf(settings, name) == IgnoreReOf(settings, DefaultName);
  }

  /**
   * A named configuration that does not set its own `stats_file` reads
   * `webpack-stats.json` in the root package, whatever DEFAULT says: file
   * locations are never inherited.
   */
  lemma NamedStatsFileNotInherited(settings: SettingsMap, root: string, name: string)
    requires name != DefaultName
    requires Key(name, "stats_file") !in settings
    requires NewState(settings, root, name).Ok?
    ensures NewState(settings, root, name).value.statsFile == Resource.StaticResource(root + ":" + DefaultStatsFile)
  {
    NewStateFields(settings, root, name);
    DefaultStatsFileUnqualified();
    assert StatsFileOf(settings, root, name) == Ok(Resource.StaticResource(root + ":" + DefaultStatsFile));
  }
}

=== FILE: strings.dfy ===
/**
 * The handful of Python `str` operations the package relies on:
 * `startswith`/`endswith`, `split(sep)`, whitespace `split()`, `strip()`
 * and `lower()`. Each is given the meaning CPython gives it, except that
 * `lower()` folds ASCII letters only.
 */
module Strings {

  /** Python's `str.isspace` for one character: the characters `str.split()`
      and `str.strip()` treat as whitespace. */
  predicate IsWhitespace(c: char) {
    var n := c as int;
    (9 <= n <= 13) || (28 <= n <= 32) || n == 0x85 || n == 0xA0 || n == 0x1680
    || (0x2000 <= n <= 0x200A) || n == 0x2028 || n == 0x2029 || n == 0x202F
    || n == 0x205F || n == 0x3000
  }

  /** No character of `s` is whitespace. */
  predicate NoSpace(s: string) {
    forall i | 0 <= i < |s| :: !IsWhitespace(s[i])
  }

  predicate StartsWith(s: string, prefix: string) {
    |prefix| <= |s| && s[..|prefix|] == prefix
  }

  predicate EndsWith(s: string, suffix: string) {
    |suffix| <= |s| && s[|s| - |suffix|..] == suffix
  }

  /** A string ends with whatever was appended last. */
  lemma EndsWithAppend(a: string, b: string)
    ensures EndsWith(a + b, b)
  {
    assert (a + b)[|a|..] == b;
  }

  /** `s.endswith(suffix)` holds of `s` exactly when it holds of `s` itself or
      of its tail: the step used when a suffix is searched for left to right. */
  lemma EndsWithStep(s: string, suffix: string)
    requires |s| > 0
    ensures EndsWith(s, suffix) <==> s == suffix || EndsWith(s[1..], suffix)
  {
    if EndsWith(s[1..], suffix) {
      assert s[|s| - |suffix|..] == s[1..][|s[1..]| - |suffix|..];
    }
    if EndsWith(s, suffix) && s != suffix {
      assert |suffix| < |s|;
      assert s[1..][|s[1..]| - |suffix|..] == s[|s| - |suffix|..];
    }
  }

  /** Index of the first occurrence of `c` in `s`. */
  function IndexOf(s: string, c: char): (i: nat)
    requires c in s
    ensures i < |s| && s[i] == c && c !in s[..i]
  {
    if s[0] == c then 0
    else
      assert s == [s[0]] + s[1..];
      var j := IndexOf(s[1..], c);
      assert s[..j + 1] == [s[0]] + s[1..][..j];
      j + 1
  }

  /** `sep.join(parts)` for a non-empty list of parts. */
  function Join(parts: seq<string>, sep: char): string
    requires |parts| > 0
  {
    if |parts| == 1 then parts[0] else parts[0] + [sep] + Join(parts[1..], sep)
  }

  /**
   * `s.split(sep)` for a one-character separator: the pieces between the
   * occurrences of `sep`, so there is always one more piece than there are
   * separators, no piece holds a separator, and joining the pieces back
   * gives `s`.
   */
  function Split(s: string, sep: char): (parts: seq<string>)
    ensures |parts| == multiset(s)[sep] + 1
    ensures forall p | p in parts :: sep !in p
    ensures Join(parts, sep) == s
    decreases |s|
  {
    if sep !in s then
      assert multiset(s)[sep] == 0;
      [s]
    else
      var i := IndexOf(s, sep);
      var rest := Split(s[i + 1..], sep);
      SplitAt(s, sep, i);
      assert ([s[..i]] + rest)[1..] == rest;
      [s[..i]] + rest
  }

  /** Cutting `s` at its first separator: the text before it, the
      separator, and the rest, which holds one separator fewer. */
  lemma SplitAt(s: string, sep: char, i: nat)
    requires i < |s| && s[i] == sep && sep !in s[..i]
    ensures s == s[..i] + [sep] + s[i + 1..]
    ensures multiset(s)[sep] == multiset(s[i + 1..])[sep] + 1
  {
    assert s == s[..i] + [sep] + s[i + 1..];
    assert multiset(s) == multiset(s[..i]) + multiset([sep]) + multiset(s[i + 1..]);
  }

  /** Splitting a joined list gives the list back, provided no part holds the
      separator. */
  lemma {:induction false} SplitJoin(parts: seq<string>, sep: char)
    requires |parts| > 0
    requires forall p | p in parts :: sep !in p
    ensures Split(Join(parts, sep), sep) == parts
    decreases |parts|
  {
    if |parts| > 1 {
      var head := parts[0];
      var tail := Join(parts[1..], sep);
      var s := head + [sep] + tail;
      assert s[|head|] == sep;
      var i := IndexOf(s, sep);
      assert forall j | 0 <= j < |head| :: s[j] == head[j] && head[j] in head;
      assert i == |head|;
      assert s[..i] == head;
      assert s[i + 1..] == tail;
      assert forall p | p in parts[1..] :: p in parts;
      SplitJoin(parts[1..], sep);
      assert parts == [head] + parts[1..];
    }
  }

  /** `s` with every whitespace character removed. */
  function Squeeze(s: string): string {
    if |s| == 0 then []
    else (if IsWhitespace(s[0]) then [] else [s[0]]) + Squeeze(s[1..])
  }

  lemma {:induction false} SqueezeAppend(a: string, b: string)
    ensures Squeeze(a + b) == Squeeze(a) + Squeeze(b)
    decreases |a|
  {
    if |a| > 0 {
      assert (a + b)[1..] == a[1..] + b;
      SqueezeAppend(a[1..], b);
    } else {
      assert a + b == b;
    }
  }

  lemma {:induction false} SqueezeNoSpace(s: string)
    requires NoSpace(s)
    ensures Squeeze(s) == s
    decreases |s|
  {
    if |s| > 0 {
      SqueezeNoSpace(s[1..]);
      assert s == [s[0]] + s[1..];
    }
  }

  /** The concatenation of a list of strings. */
  function Concat(ws: seq<string>): string {
    if |ws| == 0 then [] else ws[0] + Concat(ws[1..])
  }

  /** Number of leading non-whitespace characters of `s`. */
  function SpanLength(s: string): (k: nat)
    ensures k <= |s| && NoSpace(s[..k])
    ensures k < |s| ==> IsWhitespace(s[k])
  {
    if |s| == 0 || IsWhitespace(s[0]) then 0
    else
      var k := SpanLength(s[1..]);
      assert s[..k + 1] == [s[0]] + s[1..][..k];
      k + 1
  }

  lemma {:induction false} SpanOfWord(w: string, rest: string)
    requires NoSpace(w)
    requires |rest| == 0 || IsWhitespace(rest[0])
    ensures SpanLength(w + rest) == |w|
    decreases |w|
  {
    if |w| > 0 {
      assert (w + rest)[1..] == w[1..] + rest;
      SpanOfWord(w[1..], rest);
    } else {
      assert w + rest == rest;
    }
  }

  /**
   * `s.split()` with no separator: the maximal runs of non-whitespace
   * characters, in order. Every word is non-empty and whitespace-free, and
   * together they hold exactly the non-whitespace characters of `s`.
   */
  function Words(s: string): (ws: seq<string>)
    ensures forall w | w in ws :: |w| > 0 && NoSpace(w)
    ensures Concat(ws) == Squeeze(s)
    decreases |s|
  {
    if |s| == 0 then []
    else if IsWhitespace(s[0]) then
      assert s == [s[0]] + s[1..];
      Words(s[1..])
    else
      var k := SpanLength(s);
      var rest := Words(s[k..]);
      assert s == s[..k] + s[k..];
      SqueezeAppend(s[..k], s[k..]);
      SqueezeNoSpace(s[..k]);
      assert ([s[..k]] + rest)[1..] == rest;
      [s[..k]] + rest
  }

  /** Splitting space-joined words gives the words back. */
  lemma {:induction false} WordsJoin(ws: seq<string>)
    requires |ws| > 0
    requires forall w | w in ws :: |w| > 0 && NoSpace(w)
    ensures Words(Join(ws, ' ')) == ws
    decreases |ws|
  {
    var w := ws[0];
    WordsOfWord(w);
    if |ws| > 1 {
      var tail := Join(ws[1..], ' ');
      WordsBreakAtSpace(w, ' ', tail);
      assert forall v | v in ws[1..] :: v in ws;
      WordsJoin(ws[1..]);
      assert ws == [w] + ws[1..];
    }
  }

  /** A single whitespace-free word splits into itself. */
  lemma WordsOfWord(w: string)
    requires |w| > 0 && NoSpace(w)
    ensures Words(w) == [w]
  {
    SpanOfWord(w, []);
    assert w + [] == w;
    assert w[|w|..] == [];
  }

  /** Words break at every whitespace character: the words of `a`, a
      whitespace character and `b` are the words of `a` followed by those of
      `b`. With `WordsOfWord` and `Words("") == []` this pins `split()` down
      on every string. */
  lemma {:induction false} WordsBreakAtSpace(a: string, c: char, b: string)
    requires IsWhitespace(c)
    ensures Words(a + [c] + b) == Words(a) + Words(b)
    decreases |a|
  {
    var s := a + [c] + b;
    if |a| == 0 {
      assert s == [c] + b;
      assert s[1..] == b;
    } else if IsWhitespace(a[0]) {
      assert s[1..] == a[1..] + [c] + b;
      WordsBreakAtSpace(a[1..], c, b);
    } else {
      var k := SpanLength(a);
      assert a == a[..k] + a[k..];
      var tail := a[k..] + [c] + b;
      assert s == a[..k] + tail;
      SpanOfWord(a[..k], tail);
      SpanOfWord(a[..k], a[k..]);
      assert s[..k] == a[..k];
      assert s[k..] == tail;
      assert k > 0;
      WordsBreakAtSpace(a[k..], c, b);
    }
  }

  /** `s.lstrip()`. */
  function TrimLeft(s: string): (t: string)
    ensures |t| == 0 || !IsWhitespace(t[0])
    ensures Squeeze(t) == Squeeze(s)
    decreases |s|
  {
    if |s| > 0 && IsWhitespace(s[0]) then
      assert s == [s[0]] + s[1..];
      TrimLeft(s[1..])
    else s
  }

  /** `s.rstrip()`. */
  function TrimRight(s: string): (t: string)
    ensures |t| == 0 || !IsWhitespace(t[|t| - 1])
    ensures Squeeze(t) == Squeeze(s)
    decreases |s|
  {
    if |s| > 0 && IsWhitespace(s[|s| - 1]) then
      assert s == s[..|s| - 1] + [s[|s| - 1]];
      SqueezeAppend(s[..|s| - 1], [s[|s| - 1]]);
      TrimRight(s[..|s| - 1])
    else s
  }

  /** `s.strip()`: neither end is whitespace, and no non-whitespace
      character is lost. */
  function Trim(s: string): (t: string)
    ensures |t| == 0 || (!IsWhitespace(t[0]) && !IsWhitespace(t[|t| - 1]))
    ensures Squeeze(t) == Squeeze(s)
  {
    var l := TrimLeft(s);
    var t := TrimRight(l);
    TrimRightPrefix(l);
    t
  }

  lemma {:induction false} TrimRightPrefix(s: string)
    ensures |TrimRight(s)| <= |s| && TrimRight(s) == s[..|TrimRight(s)|]
    decreases |s|
  {
    if |s| > 0 && IsWhitespace(s[|s| - 1]) {
      TrimRightPrefix(s[..|s| - 1]);
    }
  }

  /** ASCII `lower()`; every other character is left as it is. */
  function LowerChar(c: char): char {
    if 'A' <= c <= 'Z' then (c as int + 32) as char else c
  }

  function Lower(s: string): (t: string)
    ensures |t| == |s|
  {
    seq(|s|, i requires 0 <= i < |s| => LowerChar(s[i]))
  }
}

=== FILE: template.dfy ===
/**
 * The `{% webpack '[config:]bundle' [, extensions] %}` template tag:
 * `WebpackExtension._get_graph` resolves the bundle reference and renders
 * the tag body once per asset. The body is a parameter, `caller`.
 */
module Template {
  import opened Wrappers
  import Strings
  import Settings
  import Loader
  import Bundle
  import Registry
  import opened Manifest

  /** `bundle.split(':')` gave more than two pieces, which cannot be
      unpacked into a configuration name and a bundle name. */
  datatype ReferenceError = TooManySeparators(reference: string)

  /**
   * A bundle reference: without `:` it names a bundle of the `DEFAULT`
   * configuration; with one `:` it is `config:bundle`; with more it is an
   * error.
   */
  function SplitReference(reference: string): (r: Result<(string, string), ReferenceError>)
    ensures ':' !in reference ==> r == Ok((Settings.DefaultName, reference))
    ensures r.Ok? <==> multiset(reference)[':'] <= 1
    ensures r.Ok? && ':' in reference ==>
              && r.value.0 + ":" + r.value.1 == reference
              && ':' !in r.value.0 && ':' !in r.value.1
    ensures r.Err? ==> r.error == TooManySeparators(reference)
  {
    if ':' !in reference then Ok((Settings.DefaultName, reference))
    else
      var parts := Strings.Split(reference, ':');
      if |parts| == 2 then
        assert parts[1..] == [parts[1]];
        assert parts[0] in parts && parts[1] in parts;
        Ok((parts[0], parts[1]))
      else Err(TooManySeparators(reference))
  }

  /** Writing `config:bundle` and splitting it gives both names back. */
  lemma ReferenceRoundTrip(config: string, bundle: string)
    requires ':' !in config && ':' !in bundle
    ensures SplitReference(config + ":" + bundle) == Ok((config, bundle))
  {
    var s := config + ":" + bundle;
    assert s[|config|] == ':';
    assert Strings.Join([config, bundle], ':') == s by {
      assert [config, bundle][1..] == [bundle];
    }
    Strings.SplitJoin([config, bundle], ':');
  }

  /** `''.join(caller(a) for a in assets)`: no assets give no text, and a
      single asset gives exactly the body rendered for it. */
  function Render(assets: seq<Chunk>, caller: Chunk -> string): (r: string)
    ensures |assets| == 0 ==> r == ""
    ensures |assets| == 1 ==> r == caller(assets[0])
  {
    if |assets| == 0 then "" else caller(assets[0]) + Render(assets[1..], caller)
  }

  /** Rendering distributes over concatenation of asset lists, so each
      asset's text appears once, in the order of the assets. */
  lemma {:induction false} RenderAppend(a: seq<Chunk>, b: seq<Chunk>, caller: Chunk -> string)
    ensures Render(a + b, caller) == Render(a, caller) + Render(b, caller)
    decreases |a|
  {
    if |a| > 0 {
      assert (a + b)[1..] == a[1..] + b;
      RenderAppend(a[1..], b, caller);
    } else {
      assert a + b == b;
    }
  }

  /** Rendering is incremental: the text of the first `i` assets is a
      prefix of the whole text, followed by the text of the rest. */
  lemma RenderPrefix(assets: seq<Chunk>, caller: Chunk -> string, i: nat)
    requires i <= |assets|
    ensures Render(assets, caller) == Render(assets[..i], caller) + Render(assets[i..], caller)
  {
    assert assets == assets[..i] + assets[i..];
    RenderAppend(assets[..i], assets[i..], caller);
  }

  /** Helper: the extensions the tag passes on, its second expression, or
      `None` when it has none. */
  function TagExtensions(second: Option<Bundle.Extensions>): Bundle.Extensions {
    second.GetOr(Bundle.Unfiltered)
  }

  /** A tag without a second expression filters by the ignore patterns
      only: every suffix is accepted. */
  lemma TagWithoutExtensions(cfg: Settings.Config, mt: Bundle.Matchers, c: Chunk)
    ensures Bundle.ChunkFilter(cfg, mt, TagExtensions(None), c)
            <==> (forall p | p in cfg.ignoreRe :: !mt.regex(p, c.name))
                 && (forall p | p in cfg.ignore :: !mt.glob(c.name, p))
  {
  }

  datatype GraphError =
    | BadReference(error: ReferenceError)
    | NoConfig(reason: Registry.FacadeError)
    | NoBundle(failure: Registry.BundleFailure)

  /** The tag's result: the text or the error, the request's facade memo
      and the registry's states afterwards, and the reads and time used. */
  datatype Graph = Graph(text: Result<string, GraphError>, memo: Registry.Memo, configs: Registry.Configs,
                         io: Loader.Io)

  /**
   * `_get_graph(ctx, bundle, extensions, caller)`: split the reference, get
   * the request's facade for the configuration, resolve the bundle with the
   * tag's extensions as given, and render each asset in order. A bad
   * reference or an unknown configuration fails before any read. Whatever
   * the facade did to its state (a load, URLs written into the document) is
   * done to the registry's state, which the facade shares.
   */
  function GetGraph(memo: Registry.Memo, configs: Registry.Configs, reference: string, ext: Bundle.Extensions,
                    mt: Bundle.Matchers, staticUrl: string -> string, caller: Chunk -> string,
                    o: Loader.Oracle, io: Loader.Io, fuel: nat): (r: Graph)
    ensures multiset(reference)[':'] > 1 ==>
              r == Graph(Err(BadReference(TooManySeparators(reference))), memo, configs, io)
    ensures SplitReference(reference).Ok? && Registry.GetWebpack(memo, configs, SplitReference(reference).value.0).Err? ==>
              r == Graph(Err(NoConfig(Registry.UnknownConfig(SplitReference(reference).value.0))), memo, configs, io)
    ensures SplitReference(reference).Ok? && Registry.GetWebpack(memo, configs, SplitReference(reference).value.0).Ok? ==>
              var names := SplitReference(reference).value;
              var w := Registry.GetWebpack(memo, configs, names.0).value;
              var b := Registry.GetBundle(w.0, mt, staticUrl, names.1, ext, o, io, fuel);
              && r.memo == w.1[names.0 := b.facade]
              && r.configs == configs[names.0 := b.facade.state]
              && r.io == b.io
              && (b.assets.Ok? ==> r.text == Ok(Render(b.assets.value, caller)))
              && (b.assets.Err? ==> r.text == Err(NoBundle(b.assets.error)))
  {
    match SplitReference(reference)
    case Err(e) => Graph(Err(BadReference(e)), memo, configs, io)
    case Ok(names) =>
      match Registry.GetWebpack(memo, configs, names.0)
      case Err(e) => Graph(Err(NoConfig(e)), memo, configs, io)
      case Ok(w) =>
        var b := Registry.GetBundle(w.0, mt, staticUrl, names.1, ext, o, io, fuel);
        var memo' := w.1[names.0 := b.facade];
        var configs' := configs[names.0 := b.facade.state];
        match b.assets
        case Err(e) => Graph(Err(NoBundle(e)), memo', configs', b.io)
        case Ok(assets) => Graph(Ok(Render(assets, caller)), memo', configs', b.io)
  }

  /** A reference without `:` renders the bundle of the `DEFAULT`
      configuration, whether or not the request has its facade yet. */
  lemma DefaultReference(memo: Registry.Memo, configs: Registry.Configs, bundle: string, ext: Bundle.Extensions,
                         mt: Bundle.Matchers, staticUrl: string -> string, caller: Chunk -> string,
                         o: Loader.Oracle, io: Loader.Io, fuel: nat)
    requires ':' !in bundle
    ensures var w := Registry.GetWebpack(memo, configs, Settings.DefaultName);
            var g := GetGraph(memo, configs, bundle, ext, mt, staticUrl, caller, o, io, fuel);
            && (w.Err? ==> g.text == Err(NoConfig(Registry.UnknownConfig(Settings.DefaultName))))
            && (w.Ok? ==>
                  var b := Registry.GetBundle(w.value.0, mt, staticUrl, bundle, ext, o, io, fuel);
                  b.assets.Ok? ==> g.text == Ok(Render(b.assets.value, caller)))
  {
  }

  /** The memo keeps at most one facade per name across tags of one
      request: a well-keyed memo stays well keyed. */
  lemma GetGraphKeepsMemoWellKeyed(memo: Registry.Memo, configs: Registry.Configs, reference: string,
                                   ext: Bundle.Extensions, mt: Bundle.Matchers, staticUrl: string -> string,
                                   caller: Chunk -> string, o: Loader.Oracle, io: Loader.Io, fuel: nat)
    requires Registry.WellKeyed(memo)
    ensures Registry.WellKeyed(GetGraph(memo, configs, reference, ext, mt, staticUrl, caller, o, io, fuel).memo)
  {
    var g := GetGraph(memo, configs, reference, ext, mt, staticUrl, caller, o, io, fuel);
    var split := SplitReference(reference);
    if split.Ok? {
      var names := split.value;
      var w := Registry.GetWebpack(memo, configs, names.0);
      if w.Ok? {
        var b := Registry.GetBundle(w.value.0, mt, staticUrl, names.1, ext, o, io, fuel);
        assert g.memo == w.value.1[names.0 := b.facade];
        Registry.GetWebpackKeepsMemoWellKeyed(memo, configs, names.0);
        Registry.WellKeyedUpdate(w.value.1, b.facade);
      }
    }
  }

  /** Each tag leaves the request's facades working on the registry's
      states, the registry with the same configurations, and every
      configuration's settings as they were. */
  lemma {:induction false} GetGraphKeepsSynced(memo: Registry.Memo, configs: Registry.Configs, reference: string,
                                               ext: Bundle.Extensions, mt: Bundle.Matchers, staticUrl: string -> string,
                                               caller: Chunk -> string, o: Loader.Oracle, io: Loader.Io, fuel: nat)
    requires Registry.Synced(memo, configs)
    ensures var g := GetGraph(memo, configs, reference, ext, mt, staticUrl, caller, o, io, fuel);
            && Registry.Synced(g.memo, g.configs)
            && g.configs.Keys == configs.Keys
            && forall n | n in configs :: g.configs[n].config == configs[n].config
  {
    var g := GetGraph(memo, configs, reference, ext, mt, staticUrl, caller, o, io, fuel);
    var split := SplitReference(reference);
    if split.Ok? {
      var names := split.value;
      var w := Registry.GetWebpack(memo, configs, names.0);
      if w.Ok? {
        Registry.GetWebpackKeepsSynced(memo, configs, names.0);
        var b := Registry.GetBundle(w.value.0, mt, staticUrl, names.1, ext, o, io, fuel);
        assert g.memo == w.value.1[names.0 := b.facade];
        assert g.configs == configs[names.0 := b.facade.state];
        assert Registry.Coherent(b.facade);
      }
    }
  }

  /**
   * Without debug, a later request rendering the same tag gets the same
   * text from the document the first request left in the registry's state,
   * and reads nothing, whatever the file says by then and however that
   * request builds static URLs.
   */
  lemma SecondRequestUsesCache(memo: Registry.Memo, configs: Registry.Configs, reference: string,
                               ext: Bundle.Extensions, mt: Bundle.Matchers,
                               url1: string -> string, url2: string -> string, caller: Chunk -> string,
                               o1: Loader.Oracle, io1: Loader.Io, fuel1: nat,
                               o2: Loader.Oracle, io2: Loader.Io, fuel2: nat)
    requires Registry.Synced(memo, configs)
    requires GetGraph(memo, configs, reference, ext, mt, url1, caller, o1, io1, fuel1).text.Ok?
    requires forall n | n in configs :: !configs[n].config.debug
    ensures var g1 := GetGraph(memo, configs, reference, ext, mt, url1, caller, o1, io1, fuel1);
            var g2 := GetGraph(map[], g1.configs, reference, ext, mt, url2, caller, o2, io2, fuel2);
            g2.text == g1.text && g2.io == io2
  {
    var g1 := GetGraph(memo, configs, reference, ext, mt, url1, caller, o1, io1, fuel1);
    var names := SplitReference(reference).value;
    var w := Registry.GetWebpack(memo, configs, names.0);
    assert w.Ok?;
    Registry.GetWebpackKeepsSynced(memo, configs, names.0);
    var f := w.value.0;
    assert !f.state.config.debug;
    var b1 := Registry.GetBundle(f, mt, url1, names.1, ext, o1, io1, fuel1);
    assert g1.text == Ok(Render(b1.assets.value, caller)) && g1.configs[names.0] == b1.facade.state;
    var f2 := Registry.Facade(names.0, b1.facade.state, None);
    var b2 := Registry.GetBundle(f2, mt, url2, names.1, ext, o2, io2, fuel2);
    Registry.FreshFacadeUsesSlot(f, mt, url1, url2, names.1, ext, o1, io1, fuel1, o2, io2, fuel2);
    assert Registry.GetWebpack(map[], g1.configs, names.0) == Ok((f2, map[names.0 := f2]));
    var g2 := GetGraph(map[], g1.configs, reference, ext, mt, url2, caller, o2, io2, fuel2);
    assert g2.text == Ok(Render(b2.assets.value, caller)) && g2.io == b2.io;
  }
}

=== FILE: wrappers.dfy ===
/** Failure-carrying datatypes shared by the whole model. */
module Wrappers {

  /** A value that may be absent; plays the part of Python's `None`. */
  datatype Option<+T> = None | Some(value: T) {

    /** The held value, or `default` when there is none. */
    function GetOr(default: T): T {
      match this
      case Some(v) => v
      case None => default
    }
  }

  /** The outcome of an operation that may raise. */
  datatype Result<+T, +E> = Ok(value: T) | Err(error: E) {

    predicate IsFailure() {
      Err?
    }

    function PropagateFailure<U>(): Result<U, E>
      requires Err?
    {
      Err(error)
    }

    function Extract(): T
      requires Ok?
    {
      value
    }
  }
}
